=== FILE: README.md ===
# Multiplex network ingestion and memory-network generation

This project is a Dafny model of Infomap's multiplex input path,
`src/infomap/MultiplexNetwork.cpp`. Infomap reads a multiplex network from a
text file in two sections:

- intra-layer links: `level n1 n2 [weight]`;
- inter-layer links: `node level1 level2 [weight]`.

From these it builds a second-order "memory" network. Its state nodes are
pairs `(layer, physical node)`, and its state links connect them. A link
inside a layer becomes a state link inside that layer. An inter-layer link
`(v, l1, l2) -> w` is spread over the out-links of `(l2, v)` that stay in
layer `l2`, in proportion to their weights, as links leaving `(l1, v)`.

The model follows the source's structure, one module per stage:

| module | file | stage |
|---|---|---|
| `LinkParser` | `link_parser.dfy` | `parseIntraLink` and `parseInterLink`: stream extraction of three unsigned fields and an optional weight, then the index offset subtracted modulo 2^32 |
| `MultiplexParser` | `multiplex_parser.dfy` | `parseMultiplexNetwork`: the line loop and its section mode, lazy layer growth, inter-link aggregation, the two-layer check, and finalizing each layer |
| `LayerGraph` | `layer_graph.dfy` | the single-layer network container; only the three calls the multiplex code makes are given meanings |
| `Reconciliation` | `reconciliation.dfy` | the node-count scan, re-finalization of smaller layers, and the hand-over of node names |
| `MemoryGraph` | `memory_graph.dfy` | state nodes, state links, and the link and node weight tables |
| `IntraExpansion` | `intra_expansion.dfy` | the first phase: every stored link becomes a state link, and its source is credited with out-weight |
| `Redistribution` | `redistribution.dfy` | the second phase: inter-link entries are spread proportionally |
| `Indexing` | `indexing.dfy` | numbering the state nodes in order, the weight vector, and the total weight |
| `Generator` | `memory_network.dfy` | `generateMemoryNetwork` as a whole, and parse followed by generate |

Three modules hold generic infrastructure:

- `Wrappers`: `Result` and `Option`.
- `Ordering`: the ascending enumeration of a finite set, which models iteration over a `std::map`.
- `Weights`: weight tables and their sums.

The following are parameters of the model:

- the file's lines;
- the index offset;
- the node-name list held before generation;
- the `includeSelfLinks` flag.

Doubles are modelled as reals, and `unsigned int` fields as naturals below
2^32. Wrap-around is written out where the source can reach it.

## Model

| member | source | states |
|---|---|---|
| `LinkParser.ExtractUnsigned` | src/infomap/MultiplexNetwork.cpp:266 | extracting an `unsigned int` fails exactly when, after leading white space, there is no digit or the digit run's value does not fit in 32 bits. On success the value is the decimal value of the non-empty digit run after the white space, below 2^32, and the unread rest is what follows that run, starting with a non-digit |
| `LinkParser.DecimalRoundTrip` | src/infomap/MultiplexNetwork.cpp:266 | reading back the decimal numeral of any natural gives that natural |
| `LinkParser.SubtractOffset` | src/infomap/MultiplexNetwork.cpp:269-271 | the offset is subtracted in unsigned 32-bit arithmetic: the result stays below 2^32, adding the offset back modulo 2^32 recovers the field, and it is the plain difference when the field is at least the offset |
| `LinkParser.ParseFields` | src/infomap/MultiplexNetwork.cpp:264-271 | a failure is the format error carrying the line, and a success holds three values below 2^32; which values is stated by `LinkParser.ParseSpelled` |
| `LinkParser.ParseSpelled` | src/infomap/MultiplexNetwork.cpp:264-271 | any line spelled as blanks, digits, blanks, digits, blanks, digits and a tail that does not start with a digit, where every digit run fits in 32 bits (leading zeros allowed), parses to the three digit runs' values each minus the offset modulo 2^32, and the weight read from the tail |
| `LinkParser.ParseIntraLink` | src/infomap/MultiplexNetwork.cpp:262-272 | a failure is always a format error that carries the offending line; a success is an intra record whose three fields are 32-bit values |
| `LinkParser.ParseInterLink` | src/infomap/MultiplexNetwork.cpp:274-284 | a failure is always a format error that carries the offending line; a success is an inter record whose three fields are 32-bit values |
| `LinkParser.ParseFieldsWithoutWeight` | src/infomap/MultiplexNetwork.cpp:266-271 | a line of three printed 32-bit values parses to those values minus the offset, with the weight defaulting to 1 |
| `LinkParser.ParseFieldsWithWeight` | src/infomap/MultiplexNetwork.cpp:266-271 | a line of three printed values followed by a whole-number weight parses to the values minus the offset and that weight |
| `LinkParser.WeightOfPrinted` | src/infomap/MultiplexNetwork.cpp:268 | a whole-number weight printed after the fields is read back exactly |
| `LinkParser.ExtractReal` | src/infomap/MultiplexNetwork.cpp:268 | extracting a `double` yields a value exactly when, after the white space, an optional sign and an optional point, a digit follows |
| `LinkParser.ReadSigned` | src/infomap/MultiplexNetwork.cpp:268 | after the white space, a value is read exactly when, after an optional sign and an optional point, a digit follows |
| `LinkParser.ReadMagnitude` | src/infomap/MultiplexNetwork.cpp:268 | the unsigned part of a `double` is read exactly when the text starts with a digit, or with a point and a digit |
| `LinkParser.ExtractRealSpelled` | src/infomap/MultiplexNetwork.cpp:268 | a weight spelled as blanks, an optional `-` or `+`, whole digits, an optional point with fraction digits, and a tail the number does not run into, such as `-1.25` or `2.5`, is read as the whole part plus the fraction, negated for `-` |
| `LinkParser.WeightField` | src/infomap/MultiplexNetwork.cpp:268 | the weight is the extracted number when the rest of the line starts with one, and 1 otherwise |
| `LinkParser.ParseFieldsWithUnreadableWeight` | src/infomap/MultiplexNetwork.cpp:266-271 | a line of three printed values followed by text that does not start with a number, such as `1 2 3 x`, parses to the values minus the offset with weight 1 |
| `LinkParser.BadFirstFieldFails` | src/infomap/MultiplexNetwork.cpp:266-267 | a line whose first field, after the blanks, does not start with a digit, or whose digit run does not fit in 32 bits, is a format error carrying the line in either section |
| `LinkParser.BadSecondFieldFails` | src/infomap/MultiplexNetwork.cpp:266-267 | a readable first field followed by a second one that is missing, not a number or wider than 32 bits (such as `1 x 3`) is a format error carrying the line |
| `LinkParser.BadThirdFieldFails` | src/infomap/MultiplexNetwork.cpp:266-267 | two readable fields followed by a third one that is missing, not a number or wider than 32 bits (such as `1 2 4294967296`) is a format error carrying the line |
| `MultiplexParser.ParseLink` | src/infomap/MultiplexNetwork.cpp:73-92 | in intra mode a record line yields an intra record and in inter mode an inter record; every failure is the format error for that line |
| `MultiplexParser.Classify` | src/infomap/MultiplexNetwork.cpp:62-71 | a line is skipped exactly when it is empty or starts with `#`, is the intra header exactly when it is `*Intra` or `*intra`, and the inter header exactly when it is `*Inter` or `*inter` |
| `MultiplexParser.LineStep` | src/infomap/MultiplexNetwork.cpp:62-71 | over the line's text: an empty or `#` line is skipped and keeps the mode; `*Intra`/`*intra` is skipped and sets intra mode; `*Inter`/`*inter` is skipped and sets inter mode; any other line is the next record line and keeps the mode |
| `MultiplexParser.ReadSucceedsIffAllParse` | src/infomap/MultiplexNetwork.cpp:60-98 | the line loop succeeds exactly when every record line parses in the mode set by the last header before it |
| `MultiplexParser.ReadYieldsRecordsInOrder` | src/infomap/MultiplexNetwork.cpp:60-98 | a successful loop yields one record per record line, in file order, each parsed in its line's mode |
| `MultiplexParser.ReadFailsAtFirstBadLine` | src/infomap/MultiplexNetwork.cpp:60-98 | a failing loop reports the error of the first record line that does not parse, and every earlier record line parses |
| `MultiplexParser.ReadRecordsFollowsMode` | src/infomap/MultiplexNetwork.cpp:55-98 | for a whole file, where the mode starts as intra, reading succeeds exactly when every record line parses in its mode; the records are those lines' records in order; a failure is the first bad line's error |
| `MultiplexParser.ReadRecordsValid` | src/infomap/MultiplexNetwork.cpp:75-92 | every record read holds 32-bit unsigned fields |
| `MultiplexParser.Grow` | src/infomap/MultiplexNetwork.cpp:80-81 | growing keeps the existing layers, appends only empty layers, and reaches the larger of the current count and the requested count |
| `MultiplexParser.AddRecord` | src/infomap/MultiplexNetwork.cpp:73-97 | an inter record adds its weight to its key's entry and changes nothing else. An intra record fails exactly when its level is 2^32-1 and no such layer exists yet, because `level + 1` wraps to 0. Otherwise the layers grow to cover the level and only that layer's link gains the weight |
| `MultiplexParser.WrappedLevelIndexesPastEnd` | src/infomap/MultiplexNetwork.cpp:78-83 | with offset 1, an intra line whose level field is 0 parses to level 2^32-1; growing to `level + 1` layers in 32 bits asks for 0 layers and leaves the vector as it was, which is shorter than the level indexed next; the model reports the overflow error |
| `MultiplexParser.AccumulateFailsIff` | src/infomap/MultiplexNetwork.cpp:78-83 | starting with fewer than 2^32 layers, accumulating records fails exactly when some intra record names level 2^32-1 |
| `MultiplexParser.Accumulate` | src/infomap/MultiplexNetwork.cpp:73-97 | applying the records one by one fails only with the wrapped layer index; a success keeps every layer and every inter key it started with |
| `MultiplexParser.AccumulateLayerCount` | src/infomap/MultiplexNetwork.cpp:80-81 | after accumulation the layer count is the larger of the previous count and one more than the largest level any intra record names |
| `MultiplexParser.AddRecordLinks` | src/infomap/MultiplexNetwork.cpp:83 | one record gives a layer an entry for a pair, and changes that entry's weight by its own weight, exactly when it is an intra record for that pair; everything else is left alone |
| `MultiplexParser.AccumulateLinkSums` | src/infomap/MultiplexNetwork.cpp:83 | after accumulation each layer has an entry for exactly the pairs it had before and the pairs its intra records name, even where their weights cancel to 0. Every entry weighs its previous weight plus the weights of all intra records for it (duplicates aggregate) |
| `MultiplexParser.AccumulateInterSums` | src/infomap/MultiplexNetwork.cpp:94 | after accumulation the inter-link table holds, for every key, its previous entry plus the weights of all inter records with that key, and gains exactly the keys of those records |
| `MultiplexParser.FinalizeAll` | src/infomap/MultiplexNetwork.cpp:107-112 | after the first pass every layer is finalized and keeps its links and names |
| `MultiplexParser.BuildMultiplex` | src/infomap/MultiplexNetwork.cpp:100-112 | a built multiplex network has at least two layers, all finalized |
| `MultiplexParser.BuildMultiplexOutcome` | src/infomap/MultiplexNetwork.cpp:80-112 | a wrapped level gives the overflow error. Otherwise the domain error arises exactly when intra records name fewer than two layers. So building succeeds exactly when no level wraps and the intra records name at least two layers. A success has exactly as many layers as intra records name. Each layer's link pairs are exactly those its intra records name, at their aggregated weights, and the inter entries are the aggregated inter records |
| `MultiplexParser.ParseMultiplexNetwork` | src/infomap/MultiplexNetwork.cpp:48-112 | a parsed network has at least two finalized layers, and when reading the lines fails, parsing fails with the same error |
| `LayerGraph.Finalize` | src/infomap/MultiplexNetwork.cpp:145 | re-finalizing with a demanded count keeps links and names and yields exactly that count when it covers every link endpoint |
| `Reconciliation.ScanCounts` | src/infomap/MultiplexNetwork.cpp:119-128 | the scan finds the largest node count of any layer, and flags a difference exactly when some layer's count differs from that largest |
| `Reconciliation.TakeNames` | src/infomap/MultiplexNetwork.cpp:129-132 | names already held are kept. Otherwise the names of the first layer that has any move out of that layer, and no other layer changes. With no named layer the names stay empty |
| `Reconciliation.Refinalize` | src/infomap/MultiplexNetwork.cpp:136-148 | every layer ends with the largest count and its own links and names; layers that already had it are untouched |
| `Reconciliation.EqualizeCounts` | src/infomap/MultiplexNetwork.cpp:119-148 | counts alone: every layer ends with the largest count and its links and names, and a layer that already had that count is unchanged |
| `Reconciliation.Reconcile` | src/infomap/MultiplexNetwork.cpp:119-148 | combines the equalized counts and links with the name hand-over |
| `IntraExpansion.ExpandLink` | src/infomap/MultiplexNetwork.cpp:158-176 | one stored link adds its weight to exactly its state link. It credits its source node with the weight unless it is an excluded self-link. Both endpoint state nodes exist afterwards |
| `IntraExpansion.ExpandLinkTotal` | src/infomap/MultiplexNetwork.cpp:170-176 | one stored link raises the total node weight by its weight exactly when it is credited |
| `IntraExpansion.IntraPhase` | src/infomap/MultiplexNetwork.cpp:152-179 | the first phase's total node weight is the weight of all credited stored links |
| `IntraExpansion.IntraPhaseEffect` | src/infomap/MultiplexNetwork.cpp:152-179 | after the first phase the links are exactly the stored links of every layer, at their weights. The nodes are exactly those links' endpoints, each weighted with its physical node's credited out-weight in its layer |
| `Redistribution.Split` | src/infomap/MultiplexNetwork.cpp:206-230 | a zero total splits nothing; otherwise every in-layer target gets a share |
| `Redistribution.SplitProportional` | src/infomap/MultiplexNetwork.cpp:228 | each target's share times the total is the entry's weight times the target's link weight, so the share is `w * w_i / S` |
| `Redistribution.SharesKeys` | src/infomap/MultiplexNetwork.cpp:206-230 | the shares go to exactly the in-layer out-link targets when their total is nonzero, and to nobody when it is zero |
| `Redistribution.SharesSum` | src/infomap/MultiplexNetwork.cpp:209-230 | when the out-link weights have a nonzero total, the shares add up to the entry's weight |
| `Redistribution.SplitAsWritten` | src/infomap/MultiplexNetwork.cpp:206-230 | the split as written reaches every in-layer target, and its weight is non-finite exactly when the total is zero |
| `Redistribution.SplitAsWrittenAgrees` | src/infomap/MultiplexNetwork.cpp:228 | where the total is nonzero, the written split and the corrected split give the same weight |
| `Redistribution.ZeroWeightOutLink` | src/infomap/MultiplexNetwork.cpp:206-229 | for a node whose only out-link has weight 0, the split as written gives a link with a non-finite weight, and the corrected split gives none |
| `Redistribution.Redistribute` | src/infomap/MultiplexNetwork.cpp:189-233 | one inter entry leaves the total node weight unchanged |
| `Redistribution.RedistributeLinks` | src/infomap/MultiplexNetwork.cpp:189-233 | an entry with different layers adds exactly its shares as links from `(l1, v)` to the in-layer targets of `(l2, v)`, aggregated onto existing weights. An entry whose layers agree adds nothing. No other link changes |
| `Redistribution.RedistributeNodes` | src/infomap/MultiplexNetwork.cpp:231 | an entry registers `(l1, v)` with weight 0 exactly when it hands out some share, and no node weight changes |
| `Redistribution.RegistrationAsWritten` | src/infomap/MultiplexNetwork.cpp:203-231 | an entry with different layers registers `(l1, v)` in the corrected split exactly when the source registers it (`(l2, v)` has an in-layer out-link) and those out-links have a nonzero total |
| `Redistribution.ZeroWeightRegistration` | src/infomap/MultiplexNetwork.cpp:203-231 | for a node whose only in-layer out-link has weight 0, the source registers `(l1, v)` and the corrected split does not |
| `Redistribution.RedistributeKeepsWithin` | src/infomap/MultiplexNetwork.cpp:212-226 | the in-layer out-links of every state node, which are all that a later entry reads, are unchanged by an entry |
| `Redistribution.InterPhaseLinks` | src/infomap/MultiplexNetwork.cpp:182-236 | after all entries every link is a first-phase link or a cross-layer link of its own entry, and weighs its first-phase weight plus that entry's share |
| `Redistribution.InterPhaseNodes` | src/infomap/MultiplexNetwork.cpp:182-236 | after all entries the nodes are the first-phase nodes plus the sources of entries that hand out shares, at unchanged weights |
| `Redistribution.InterPhaseOrderIndependent` | src/infomap/MultiplexNetwork.cpp:182 | walking the inter entries in any repetition-free order gives the same memory network |
| `Redistribution.InterPhase` | src/infomap/MultiplexNetwork.cpp:182-236 | the whole second phase leaves the total node weight as the first phase left it |
| `Generator.InterOrder` | src/infomap/MultiplexNetwork.cpp:182 | the inter table is walked over each of its keys exactly once |
| `Generator.IntraOutLinks` | src/infomap/MultiplexNetwork.cpp:203-214 | after the first phase, the in-layer out-links of `(l, v)` are exactly the stored out-links of `v` in layer `l` |
| `Generator.MemoryLinkAt` | src/infomap/MultiplexNetwork.cpp:152-236 | a link inside a layer is exactly a stored link of that layer, at its stored weight. A link across layers exists exactly when its entry gives its target a share, and it carries that share |
| `Generator.EntryLinks` | src/infomap/MultiplexNetwork.cpp:216-230 | the links from `(l1, v)` into layer `l2` are exactly the shares of entry `(v, l1, l2)` |
| `Generator.EntryConserved` | src/infomap/MultiplexNetwork.cpp:209-230 | when the stored out-links of `(l2, v)` have a nonzero total, the links from `(l1, v)` into layer `l2` add up to the entry's weight |
| `Generator.EntryWithoutLinks` | src/infomap/MultiplexNetwork.cpp:189-230 | an entry within one layer, or one whose second-layer node has out-links of zero total, adds no link |
| `Generator.MemoryNodeAt` | src/infomap/MultiplexNetwork.cpp:170-231 | a state node is a stored link endpoint weighted with its credited out-weight, or the source of an entry that hands out a share, at weight 0 |
| `Generator.MemoryGraphOf` | src/infomap/MultiplexNetwork.cpp:150-236 | the memory network's total node weight is the weight of all credited stored links |
| `Generator.AnyInterOrder` | src/infomap/MultiplexNetwork.cpp:182-236 | the memory network does not depend on the order of the inter entries |
| `Generator.GenerateMemoryNetwork` | src/infomap/MultiplexNetwork.cpp:117-260 | `Generated`: every layer reaches the largest count with unchanged links, the names are handed over, the graph is the two phases applied to the reconciled layers, the numbering is ordered with a matching weight vector, and the total is the credited link weight of the input layers |
| `Generator.SameCredit` | src/infomap/MultiplexNetwork.cpp:145 | re-finalizing layers, which keeps their links, does not change the credited weight |
| `Generator.ReadMultiplexNetwork` | src/infomap/MultiplexNetwork.cpp:48-115 | reading fails exactly when parsing fails, with the same error. A success has at least two layers that all share one node count, and is what generation makes of the parsed network, with every guarantee of `Generated` |
| `Indexing.StateOrder` | src/infomap/MultiplexNetwork.cpp:239 | the state nodes are enumerated once each, in ascending `(layer, physical node)` order |
| `Indexing.TotalInAnyOrder` | src/infomap/MultiplexNetwork.cpp:245-254 | summing the node weights in any order that lists every node exactly once, such as the numbering order, gives the total node weight |
| `Indexing.NumberByPosition` | src/infomap/MultiplexNetwork.cpp:238-243 | each node is numbered by its position in the enumeration |
| `Indexing.NumberingOfOrder` | src/infomap/MultiplexNetwork.cpp:238-243 | numbering by position in ascending order numbers the nodes from 0, and is consistent with the node order in both directions |
| `Indexing.WeightVector` | src/infomap/MultiplexNetwork.cpp:245-254 | the vector starts at zero and entry `k` becomes the weight of the `k`-th node; the total is the sum of all node weights |
| `Indexing.AssignIndices` | src/infomap/MultiplexNetwork.cpp:238-254 | the numbering is one-to-one onto `0..n-1` and follows the node order; the weight at each node's number is that node's weight; the total is the node-weight total |

## Left out

- `readInputData` (lines 40-46) only dispatches on the configured input format; configuration is not modelled.
- Progress and summary output, the diagnostic counters, and file opening are not modelled. Neither is the JavaScript interface.
- The single-layer network container is not part of this model. `LayerGraph` gives `addLink` and `finalizeAndCheckNetwork` assumed meanings: links aggregate per ordered pair, and the node count is the larger of the demanded count and one more than the largest endpoint. Its validation, compaction and `printParsingResult` are left out.
- The memory network container is not part of this model either. `MemoryGraph` assumes that state nodes are ordered by layer, then physical index, and that `insertM2Link` and `addM2Node` add weight into a table entry, creating it at zero.
- `InterLinkKey` comparison is not part of this model. `Generator.LtKey` assumes the order node, first layer, second layer; `Generator.AnyInterOrder` shows the result does not depend on it.
- The `nonPhysicalSwitch` branch (lines 193-199) is switched off by a constant, so it is not modelled.
- `LinkParser.ExtractUnsigned`: no sign is accepted before an unsigned field. Stream extraction of `unsigned int` also accepts `+` and a wrapped `-`. The failure lemmas `LinkParser.BadFirstFieldFails`, `LinkParser.BadSecondFieldFails` and `LinkParser.BadThirdFieldFails` therefore exclude a field that starts with a sign, where the model and the source differ.
- `LinkParser.ExtractReal` reads no exponent in the weight field. It also reads a numeral beyond the range of a `double`, such as `1` followed by 309 zeros, as its exact value. The stream's extraction fails there, and the weight defaults to 1.
- Doubles are reals: rounding and the order of floating-point additions are not modelled.
- `MultiplexParser.ParseMultiplexNetwork`: the line loop runs to the end before records are applied. So when a level of 2^32-1 (undefined behaviour in the source) comes before a malformed line, the model reports the format error and the source does not. Otherwise the errors agree.
- `Reconciliation.Reconcile`: the source's single scan is split into a pass over the counts and then a pass over the names. The outcome is the same, because finalizing keeps names.
- The node-name list held before generation is a parameter.
- `Redistribution.RedistributeNodes`, `Redistribution.RedistributeLinks`, `Redistribution.InterPhaseLinks`, `Redistribution.InterPhaseNodes`, `Generator.EntryLinks`, `Generator.EntryWithoutLinks`, `Generator.MemoryNodeAt`, `Generator.MemoryLinkAt` and `Generator.GenerateMemoryNetwork` follow the corrected split (see Findings). So when the in-layer out-links of `(l2, v)` total 0, they add no link and do not register `(l1, v)`. The source inserts non-finite link weights there and registers `(l1, v)` with weight 0.
- `Redistribution.InterPhaseLinks` follows the corrected split: for an entry whose `(l2, v)` has in-layer out-links of total 0, it states that no cross-layer link exists, where the source adds links of non-finite weight.
- `Redistribution.InterPhaseNodes` follows the corrected split: it does not count `(l1, v)` among the nodes when the in-layer out-links of `(l2, v)` total 0, where the source registers it with weight 0.
- `Generator.EntryLinks` follows the corrected split: at a zero out-link total it states that the entry gives no links, where the source gives one non-finite link per in-layer target.
- `Generator.EntryWithoutLinks` follows the corrected split: it states that an entry whose `(l2, v)` has out-links of total 0 adds no link, where the source adds non-finite ones.

## Findings

| source | as written | input that shows it | evidently intended | confidence | as-written member | corrected member |
|---|---|---|---|---|---|---|
| src/infomap/MultiplexNetwork.cpp:206-229 | the split only checks that `(l2, v)` has an out-link entry, then divides by the out-link total `S` without checking it. For each in-layer target it also registers `(l1, v)` through `addM2Node(layer1, nodeIndex, 0.0)`, so with `S` = 0 that node becomes a state node and shifts the numbering of the nodes after it | layer `l2` has one link `v -> t` of weight 0, and an inter entry `(v, l1, l2) -> 5` is given: `S` is 0 and `5 * 0 / 0` is NaN, inserted as the weight of `(l1, v) -> (l2, t)`, and `(l1, v)` is registered with weight 0 | a zero total gives no links and registers no node: an entry whose node has nothing to spread over is discarded | not executed; medium: it needs the layer container to keep a zero-weight link, and that container is not part of this model | `Redistribution.SplitAsWritten` (counterexample `Redistribution.ZeroWeightOutLink`) and `Redistribution.RegistersAsWritten` (counterexample `Redistribution.ZeroWeightRegistration`) | `Redistribution.Split` (with `Redistribution.SharesSum` and `Redistribution.SharesKeys`) and `Redistribution.Registers` (with `Redistribution.RegistrationAsWritten`) |
| src/infomap/MultiplexNetwork.cpp:78-83 | the layer vector is grown while its size is below `level + 1`, computed in `unsigned int`, and then `m_networks[level]` is indexed | with index offset 1, the intra line `0 1 2`: the level becomes 2^32-1, `level + 1` wraps to 0, no layer is added, and `m_networks[2^32-1]` is read past the end of the vector | an intra level that cannot be stored is rejected as an error | not executed; high: the wrap follows from the unsigned subtraction and addition, and it takes only a file numbered from 0 read with an index offset of 1 | `MultiplexParser.WrappedLevelIndexesPastEnd` | `MultiplexParser.AddRecord` (with `MultiplexParser.AccumulateFailsIff`) |

Two behaviours of the code that are easy to misread:

- **Layer count for the two-layer check.** The code counts the layers grown up to the largest intra level, not the distinct levels. A file whose only intra level is the second layer passes the check.
- **Node names.** The first named layer gives up its names through a swap; they are not copied.

=== FILE: indexing.dfy ===
/** The last step of generateMemoryNetwork: the state nodes are numbered
    0, 1, 2, ... in ascending node order, and their weights are copied into
    a vector in that numbering and summed. */
module Indexing {
  import opened Ordering
  import opened Weights
  import opened MemoryGraph

  /** `index` numbers the nodes of `nodes` from 0 without gaps or repeats,
      in ascending node order. */
  predicate OrderedNumbering(index: map<StateNode, nat>, nodes: map<StateNode, real>)
  {
    && index.Keys == nodes.Keys
    && (forall n | n in index :: index[n] < |nodes|)
    && (forall a, b | a in index && b in index :: LtState(a, b) <==> index[a] < index[b])
  }

  /** The state nodes of `nodes` in ascending order. */
  function StateOrder(nodes: map<StateNode, real>): (r: seq<StateNode>)
    ensures |r| == |nodes| && forall n :: n in r <==> n in nodes
    ensures forall p, q | 0 <= p < q < |r| :: LtState(r[p], r[q])
  {
    LtStateIsStrictTotal();
    Sorted(nodes.Keys, LtState)
  }

  /** Summing the node weights in any order that lists every node once
      gives the total node weight. */
  lemma TotalInAnyOrder(ks: seq<StateNode>, nodes: map<StateNode, real>)
    requires Distinct(ks) && forall n :: n in ks <==> n in nodes
    ensures SumOver(ks, nodes) == StateTotal(nodes)
  {
    LtStateIsStrictTotal();
    var sorted := Sorted(nodes.Keys, LtState);
    AscendingIsDistinct(sorted, LtState);
    SumOverPermutation(ks, sorted, nodes);
  }

  /** The numbering, the weight vector and the total node weight. The
      vector starts as zeros and each node's weight is added at its number,
      so entry `i` is the weight of the `i`-th node; the total is the sum of
      all node weights. The numbering is one-to-one from the `n` nodes into
      `0..n-1`, so it is a bijection. */
  method AssignIndices(nodes: map<StateNode, real>)
    returns (index: map<StateNode, nat>, weights: seq<real>, total: real)
    ensures OrderedNumbering(index, nodes)
    ensures forall a, b | a in index && b in index && a != b :: index[a] != index[b]
    ensures |weights| == |nodes|
    ensures forall n | n in nodes :: weights[index[n]] == nodes[n]
    ensures total == StateTotal(nodes)
  {
    var order := StateOrder(nodes);
    index := NumberByPosition(order);
    weights, total := WeightVector(order, nodes);
    NumberingOfOrder(order, index, nodes);
    assert Distinct(order);
    TotalInAnyOrder(order, nodes);
  }

  /** Each element of `order` numbered by its position. */
  method NumberByPosition(order: seq<StateNode>) returns (index: map<StateNode, nat>)
    requires forall p, q | 0 <= p < q < |order| :: LtState(order[p], order[q])
    ensures forall n :: n in index <==> n in order
    ensures forall k | 0 <= k < |order| :: order[k] in index && index[order[k]] == k
  {
    index := map[];
    var i := 0;
    while i < |order|
      invariant 0 <= i <= |order|
      invariant forall n :: n in index <==> n in order[..i]
      invariant forall k | 0 <= k < i :: order[k] in index && index[order[k]] == k
    {
      assert forall k | 0 <= k < i :: order[k] != order[i] by {
        forall k | 0 <= k < i ensures order[k] != order[i] {
          assert LtState(order[k], order[i]);
        }
      }
      index := index[order[i] := i];
      i := i + 1;
    }
    assert order[..|order|] == order;
  }

  /** The weights of the nodes of `order`, in that order, and their sum. */
  method WeightVector(order: seq<StateNode>, nodes: map<StateNode, real>) returns (weights: seq<real>, total: real)
    requires forall n | n in order :: n in nodes
    ensures |weights| == |order|
    ensures forall k | 0 <= k < |order| :: weights[k] == nodes[order[k]]
    ensures total == SumOver(order, nodes)
  {
    weights := seq(|order|, _ => 0.0);
    total := 0.0;
    var i := 0;
    while i < |order|
      invariant 0 <= i <= |order| && |weights| == |order|
      invariant forall k | 0 <= k < i :: weights[k] == nodes[order[k]]
      invariant forall k | i <= k < |order| :: weights[k] == 0.0
      invariant total == SumOver(order[..i], nodes)
    {
      weights := weights[i := weights[i] + nodes[order[i]]];
      SumOverAppend(order[..i], [order[i]], nodes);
      assert order[..i + 1] == order[..i] + [order[i]];
      total := total + nodes[order[i]];
      i := i + 1;
    }
    assert order[..|order|] == order;
  }

  /** Numbering an ascending enumeration of the nodes by position gives an
      ordered numbering. */
  lemma NumberingOfOrder(order: seq<StateNode>, index: map<StateNode, nat>, nodes: map<StateNode, real>)
    requires |order| == |nodes| && forall n :: n in order <==> n in nodes
    requires forall p, q | 0 <= p < q < |order| :: LtState(order[p], order[q])
    requires forall n :: n in index <==> n in order
    requires forall k | 0 <= k < |order| :: order[k] in index && index[order[k]] == k
    ensures OrderedNumbering(index, nodes)
    ensures forall n | n in index :: index[n] < |order| && order[index[n]] == n
  {
    forall n | n in index
      ensures index[n] < |order| && order[index[n]] == n
    {
      var k :| 0 <= k < |order| && order[k] == n;
    }
    forall a, b | a in index && b in index
      ensures LtState(a, b) <==> index[a] < index[b]
    {
      var p, q := index[a], index[b];
      if p > q {
        assert LtState(b, a);
      }
    }
  }
}

=== FILE: intra_expansion.dfy ===
/** The first phase of generateMemoryNetwork: every stored link of every
    layer becomes a state link inside that layer, and its source state node
    is credited with the link's weight as out-weight (self-links only when
    they are included). Layers are walked in index order and each layer's
    links in ascending `(n1, n2)` order. */
module IntraExpansion {
  import opened Ordering
  import opened Weights
  import opened LayerGraph
  import opened MemoryGraph

  /** The state link that stored link `e` of layer `layer` becomes. */
  function IntraLink(layer: nat, e: (nat, nat)): StateLink
  {
    StateLink(StateNode(layer, e.0), StateNode(layer, e.1))
  }

  /** The physical endpoints of a state link. */
  function PairOf(l: StateLink): (nat, nat)
  {
    (l.src.phys, l.dst.phys)
  }

  /** Whether a link's weight counts as out-weight of its source. */
  predicate Credited(e: (nat, nat), includeSelfLinks: bool)
  {
    includeSelfLinks || e.0 != e.1
  }

  /** The links that credit physical node `x` with out-weight. */
  function CreditsNode(x: nat, includeSelfLinks: bool): ((nat, nat)) -> bool
  {
    (e: (nat, nat)) => e.0 == x && Credited(e, includeSelfLinks)
  }

  /** The links whose weight counts as out-weight at all. */
  function CreditsAny(includeSelfLinks: bool): ((nat, nat)) -> bool
  {
    (e: (nat, nat)) => Credited(e, includeSelfLinks)
  }

  /** One stored link `(n1, n2)` of weight `w`: the state link gains `w`,
      the source state node gains `w` unless the link is an excluded
      self-link, and the target state node is registered with weight 0. */
  function ExpandLink(g: Graph, layer: nat, e: (nat, nat), w: real, includeSelfLinks: bool): (r: Graph)
    ensures r.links.Keys == g.links.Keys + {IntraLink(layer, e)}
    ensures forall l :: Get(r.links, l) == Get(g.links, l) + (if l == IntraLink(layer, e) then w else 0.0)
    ensures r.nodes.Keys == g.nodes.Keys + {StateNode(layer, e.0), StateNode(layer, e.1)}
    ensures forall n :: Get(r.nodes, n) == Get(g.nodes, n) +
              (if n == StateNode(layer, e.0) && Credited(e, includeSelfLinks) then w else 0.0)
  {
    var src, dst := StateNode(layer, e.0), StateNode(layer, e.1);
    var g1 := InsertLink(g, src, dst, w);
    var g2 := if Credited(e, includeSelfLinks) then AddNode(g1, src, w) else g1;
    AddNode(g2, dst, 0.0)
  }

  /** One stored link adds its weight to the total node weight exactly when
      it is credited. */
  lemma ExpandLinkTotal(g: Graph, layer: nat, e: (nat, nat), w: real, includeSelfLinks: bool)
    ensures TotalNodeWeight(ExpandLink(g, layer, e, w, includeSelfLinks))
         == TotalNodeWeight(g) + (if Credited(e, includeSelfLinks) then w else 0.0)
  {
    var src, dst := StateNode(layer, e.0), StateNode(layer, e.1);
    var g1 := InsertLink(g, src, dst, w);
    var g2 := if Credited(e, includeSelfLinks) then AddNode(g1, src, w) else g1;
    TotalAfterAddNode(g1, src, w);
    TotalAfterAddNode(g2, dst, 0.0);
  }

  /** The stored links `ks` of one layer, expanded in the order given. */
  function ExpandLinks(g: Graph, layer: nat, ks: seq<(nat, nat)>, lm: LinkMap, includeSelfLinks: bool): Graph
    decreases |ks|
  {
    if ks == [] then g
    else ExpandLinks(ExpandLink(g, layer, ks[0], Get(lm, ks[0]), includeSelfLinks), layer, ks[1..], lm, includeSelfLinks)
  }

  /** Expanding distinct stored links adds each link's weight to its state
      link and to nothing else. */
  lemma ExpandLinksLinks(g: Graph, layer: nat, ks: seq<(nat, nat)>, lm: LinkMap, includeSelfLinks: bool)
    requires Distinct(ks)
    ensures var r := ExpandLinks(g, layer, ks, lm, includeSelfLinks);
            && r.links.Keys == g.links.Keys + (set e | e in ks :: IntraLink(layer, e))
            && forall l :: Get(r.links, l) == Get(g.links, l) +
                 (if l.src.layer == layer && l.dst.layer == layer && PairOf(l) in ks then Get(lm, PairOf(l)) else 0.0)
  {
    var r := ExpandLinks(g, layer, ks, lm, includeSelfLinks);
    forall l
      ensures (l in r.links <==> l in g.links || (l.src.layer == layer && l.dst.layer == layer && PairOf(l) in ks))
      ensures Get(r.links, l) == Get(g.links, l) +
                (if l.src.layer == layer && l.dst.layer == layer && PairOf(l) in ks then Get(lm, PairOf(l)) else 0.0)
    {
      ExpandLinksLinkAt(g, layer, ks, lm, includeSelfLinks, l);
    }
    forall l
      ensures l in (set e | e in ks :: IntraLink(layer, e)) <==> (l.src.layer == layer && l.dst.layer == layer && PairOf(l) in ks)
    {
      if l.src.layer == layer && l.dst.layer == layer && PairOf(l) in ks {
        assert l == IntraLink(layer, PairOf(l));
      }
    }
  }

  /** One state link after expanding distinct stored links. */
  lemma {:induction false} ExpandLinksLinkAt(g: Graph, layer: nat, ks: seq<(nat, nat)>, lm: LinkMap, includeSelfLinks: bool, l: StateLink)
    requires Distinct(ks)
    ensures var r := ExpandLinks(g, layer, ks, lm, includeSelfLinks);
            && (l in r.links <==> l in g.links || (l.src.layer == layer && l.dst.layer == layer && PairOf(l) in ks))
            && Get(r.links, l) == Get(g.links, l) +
                 (if l.src.layer == layer && l.dst.layer == layer && PairOf(l) in ks then Get(lm, PairOf(l)) else 0.0)
    decreases |ks|
  {
    if ks != [] {
      var g1 := ExpandLink(g, layer, ks[0], Get(lm, ks[0]), includeSelfLinks);
      ExpandLinksLinkAt(g1, layer, ks[1..], lm, includeSelfLinks, l);
      assert ks[0] !in ks[1..];
      assert PairOf(l) in ks <==> PairOf(l) == ks[0] || PairOf(l) in ks[1..];
      if l == IntraLink(layer, ks[0]) {
        assert PairOf(l) == ks[0];
      } else if l.src.layer == layer && l.dst.layer == layer {
        assert PairOf(l) != ks[0];
      }
    }
  }

  /** Physical node `x` is an endpoint of one of the links `ks`. */
  predicate Touches(ks: seq<(nat, nat)>, x: nat)
  {
    exists e | e in ks :: e.0 == x || e.1 == x
  }

  /** Expanding stored links registers both endpoints of every link and no
      other state node. */
  lemma {:induction false} ExpandLinksNodeKeys(g: Graph, layer: nat, ks: seq<(nat, nat)>, lm: LinkMap, includeSelfLinks: bool)
    ensures var r := ExpandLinks(g, layer, ks, lm, includeSelfLinks);
            forall n :: n in r.nodes <==> (n in g.nodes || (n.layer == layer && Touches(ks, n.phys)))
    decreases |ks|
  {
    if ks != [] {
      var g1 := ExpandLink(g, layer, ks[0], Get(lm, ks[0]), includeSelfLinks);
      ExpandLinksNodeKeys(g1, layer, ks[1..], lm, includeSelfLinks);
      forall x
        ensures Touches(ks, x) <==> ks[0].0 == x || ks[0].1 == x || Touches(ks[1..], x)
      {
        if Touches(ks, x) {
          var e :| e in ks && (e.0 == x || e.1 == x);
          if e != ks[0] {
            assert e in ks[1..];
          }
        }
      }
    }
  }

  /** Expanding stored links credits each state node of the layer with the
      weights of the credited links that leave it, and no other node. */
  lemma {:induction false} ExpandLinksNodes(g: Graph, layer: nat, ks: seq<(nat, nat)>, lm: LinkMap, includeSelfLinks: bool)
    ensures var r := ExpandLinks(g, layer, ks, lm, includeSelfLinks);
            forall n :: Get(r.nodes, n) == Get(g.nodes, n) +
              (if n.layer == layer then SumWhere(ks, lm, CreditsNode(n.phys, includeSelfLinks)) else 0.0)
    decreases |ks|
  {
    if ks != [] {
      var g1 := ExpandLink(g, layer, ks[0], Get(lm, ks[0]), includeSelfLinks);
      ExpandLinksNodes(g1, layer, ks[1..], lm, includeSelfLinks);
      var r := ExpandLinks(g, layer, ks, lm, includeSelfLinks);
      assert r == ExpandLinks(g1, layer, ks[1..], lm, includeSelfLinks);
      forall n
        ensures Get(r.nodes, n) == Get(g.nodes, n) +
                  (if n.layer == layer then SumWhere(ks, lm, CreditsNode(n.phys, includeSelfLinks)) else 0.0)
      {
        var p := CreditsNode(n.phys, includeSelfLinks);
        assert SumWhere(ks, lm, p) == (if p(ks[0]) then Get(lm, ks[0]) else 0.0) + SumWhere(ks[1..], lm, p);
        assert Get(g1.nodes, n) == Get(g.nodes, n) +
          (if n.layer == layer && p(ks[0]) then Get(lm, ks[0]) else 0.0);
      }
    }
  }

  /** Expanding stored links adds the weight of the credited ones to the
      total node weight. */
  lemma {:induction false} ExpandLinksTotal(g: Graph, layer: nat, ks: seq<(nat, nat)>, lm: LinkMap, includeSelfLinks: bool)
    ensures TotalNodeWeight(ExpandLinks(g, layer, ks, lm, includeSelfLinks))
         == TotalNodeWeight(g) + SumWhere(ks, lm, CreditsAny(includeSelfLinks))
    decreases |ks|
  {
    if ks != [] {
      ExpandLinkTotal(g, layer, ks[0], Get(lm, ks[0]), includeSelfLinks);
      ExpandLinksTotal(ExpandLink(g, layer, ks[0], Get(lm, ks[0]), includeSelfLinks), layer, ks[1..], lm, includeSelfLinks);
    }
  }

  /** The stored links of one layer in the order the source walks them. */
  function LayerKeys(layer: Layer): (r: seq<(nat, nat)>)
    ensures Distinct(r)
    ensures forall e :: e in r <==> e in layer.links
  {
    LtPairIsStrictTotal();
    var r := Sorted(layer.links.Keys, LtPair);
    AscendingIsDistinct(r, LtPair);
    r
  }

  /** Layers `i..` expanded in index order. */
  function ExpandLayers(g: Graph, layers: seq<Layer>, i: nat, includeSelfLinks: bool): Graph
    requires i <= |layers|
    decreases |layers| - i
  {
    if i == |layers| then g
    else
      var lm := layers[i].links;
      ExpandLayers(ExpandLinks(g, i, LayerKeys(layers[i]), lm, includeSelfLinks), layers, i + 1, includeSelfLinks)
  }

  /** The out-weight credited to physical node `x` by one layer's links. */
  function OutWeight(lm: LinkMap, x: nat, includeSelfLinks: bool): real
  {
    LtPairIsStrictTotal();
    SumMap(Restrict(lm, CreditsNode(x, includeSelfLinks)), LtPair)
  }

  /** The weight of one layer's credited links. */
  function LayerCredit(lm: LinkMap, includeSelfLinks: bool): real
  {
    LtPairIsStrictTotal();
    SumMap(Restrict(lm, CreditsAny(includeSelfLinks)), LtPair)
  }

  /** The weight of the credited links of layers `i..`. */
  function CreditFrom(layers: seq<Layer>, i: nat, includeSelfLinks: bool): real
    requires i <= |layers|
    decreases |layers| - i
  {
    if i == |layers| then 0.0 else LayerCredit(layers[i].links, includeSelfLinks) + CreditFrom(layers, i + 1, includeSelfLinks)
  }

  /** Physical node `x` is an endpoint of some stored link. */
  predicate IsEndpoint(lm: LinkMap, x: nat)
  {
    exists e | e in lm :: e.0 == x || e.1 == x
  }

  /** Expanding all links of a layer: its stored links become state links
      inside it, with their weights. */
  lemma OneLayerLinks(g: Graph, layer: nat, ks: seq<(nat, nat)>, lm: LinkMap, includeSelfLinks: bool)
    requires Distinct(ks)
    requires forall e :: e in ks <==> e in lm
    ensures var r := ExpandLinks(g, layer, ks, lm, includeSelfLinks);
            && (forall l :: l in r.links <==> (l in g.links ||
                  (l.src.layer == layer && l.dst.layer == layer && PairOf(l) in lm)))
            && (forall l :: Get(r.links, l) == Get(g.links, l) +
                  (if l.src.layer == layer && l.dst.layer == layer then Get(lm, PairOf(l)) else 0.0))
  {
    var r := ExpandLinks(g, layer, ks, lm, includeSelfLinks);
    ExpandLinksLinks(g, layer, ks, lm, includeSelfLinks);
    forall l
      ensures l in r.links <==> (l in g.links || (l.src.layer == layer && l.dst.layer == layer && PairOf(l) in lm))
    {
      if l.src.layer == layer && l.dst.layer == layer && PairOf(l) in lm {
        assert l == IntraLink(layer, PairOf(l));
      }
    }
  }

  /** Expanding all links of a layer: the endpoints of its links are
      registered, and each of its state nodes gains the out-weight of its
      physical node. */
  lemma OneLayerNodes(g: Graph, layer: nat, ks: seq<(nat, nat)>, lm: LinkMap, includeSelfLinks: bool)
    requires Distinct(ks)
    requires forall e :: e in ks <==> e in lm
    ensures var r := ExpandLinks(g, layer, ks, lm, includeSelfLinks);
            && (forall n :: n in r.nodes <==> (n in g.nodes || (n.layer == layer && IsEndpoint(lm, n.phys))))
            && (forall n :: Get(r.nodes, n) == Get(g.nodes, n) +
                  (if n.layer == layer then OutWeight(lm, n.phys, includeSelfLinks) else 0.0))
  {
    var r := ExpandLinks(g, layer, ks, lm, includeSelfLinks);
    ExpandLinksNodes(g, layer, ks, lm, includeSelfLinks);
    ExpandLinksNodeKeys(g, layer, ks, lm, includeSelfLinks);
    forall x
      ensures Touches(ks, x) <==> IsEndpoint(lm, x)
    {
      if IsEndpoint(lm, x) {
        var e :| e in lm && (e.0 == x || e.1 == x);
        assert e in ks;
      }
    }
    LtPairIsStrictTotal();
    forall n
      ensures Get(r.nodes, n) == Get(g.nodes, n) + (if n.layer == layer then OutWeight(lm, n.phys, includeSelfLinks) else 0.0)
    {
      SumWhereIsSumMap(ks, lm, CreditsNode(n.phys, includeSelfLinks), LtPair);
    }
  }

  /** Expanding layers `i..` turns every stored link of those layers into
      its state link with its weight, and adds no other link. */
  lemma {:induction false} ExpandLayersLinks(g: Graph, layers: seq<Layer>, i: nat, includeSelfLinks: bool)
    requires i <= |layers|
    ensures var r := ExpandLayers(g, layers, i, includeSelfLinks);
            && (forall l :: l in r.links <==> (l in g.links ||
                  (i <= l.src.layer < |layers| && l.dst.layer == l.src.layer && PairOf(l) in layers[l.src.layer].links)))
            && (forall l :: Get(r.links, l) == Get(g.links, l) +
                  (if i <= l.src.layer < |layers| && l.dst.layer == l.src.layer then Get(layers[l.src.layer].links, PairOf(l)) else 0.0))
    decreases |layers| - i
  {
    if i < |layers| {
      var ks := LayerKeys(layers[i]);
      var g1 := ExpandLinks(g, i, ks, layers[i].links, includeSelfLinks);
      ExpandLayersLinks(g1, layers, i + 1, includeSelfLinks);
      OneLayerLinks(g, i, ks, layers[i].links, includeSelfLinks);
    }
  }

  /** Expanding layers `i..` registers the endpoints of their links and
      credits each of their state nodes with the out-weight of its physical
      node in its layer; other nodes are untouched. */
  lemma {:induction false} ExpandLayersNodes(g: Graph, layers: seq<Layer>, i: nat, includeSelfLinks: bool)
    requires i <= |layers|
    ensures var r := ExpandLayers(g, layers, i, includeSelfLinks);
            && (forall n :: n in r.nodes <==> (n in g.nodes ||
                  (i <= n.layer < |layers| && IsEndpoint(layers[n.layer].links, n.phys))))
            && (forall n :: Get(r.nodes, n) == Get(g.nodes, n) +
                  (if i <= n.layer < |layers| then OutWeight(layers[n.layer].links, n.phys, includeSelfLinks) else 0.0))
    decreases |layers| - i
  {
    if i < |layers| {
      var ks := LayerKeys(layers[i]);
      var g1 := ExpandLinks(g, i, ks, layers[i].links, includeSelfLinks);
      var r := ExpandLayers(g1, layers, i + 1, includeSelfLinks);
      assert ExpandLayers(g, layers, i, includeSelfLinks) == r;
      ExpandLayersNodes(g1, layers, i + 1, includeSelfLinks);
      OneLayerNodes(g, i, ks, layers[i].links, includeSelfLinks);
      LaterLayerNodes(g, g1, r, layers, i);
      LaterLayerWeights(g, g1, r, layers, i, includeSelfLinks);
    }
  }

  /** The nodes of layer `i` followed by those of the later layers are the
      nodes of layers `i..`. */
  lemma LaterLayerNodes(g: Graph, g1: Graph, r: Graph, layers: seq<Layer>, i: nat)
    requires i < |layers|
    requires forall n :: n in g1.nodes <==> (n in g.nodes || (n.layer == i && IsEndpoint(layers[i].links, n.phys)))
    requires forall n :: n in r.nodes <==> (n in g1.nodes ||
               (i + 1 <= n.layer < |layers| && IsEndpoint(layers[n.layer].links, n.phys)))
    ensures forall n :: n in r.nodes <==> (n in g.nodes ||
              (i <= n.layer < |layers| && IsEndpoint(layers[n.layer].links, n.phys)))
  {
  }

  /** The weights layer `i` adds, followed by those of the later layers, are
      the weights layers `i..` add. */
  lemma LaterLayerWeights(g: Graph, g1: Graph, r: Graph, layers: seq<Layer>, i: nat, includeSelfLinks: bool)
    requires i < |layers|
    requires forall n :: Get(g1.nodes, n) == Get(g.nodes, n) +
               (if n.layer == i then OutWeight(layers[i].links, n.phys, includeSelfLinks) else 0.0)
    requires forall n :: Get(r.nodes, n) == Get(g1.nodes, n) +
               (if i + 1 <= n.layer < |layers| then OutWeight(layers[n.layer].links, n.phys, includeSelfLinks) else 0.0)
    ensures forall n :: Get(r.nodes, n) == Get(g.nodes, n) +
              (if i <= n.layer < |layers| then OutWeight(layers[n.layer].links, n.phys, includeSelfLinks) else 0.0)
  {
  }

  /** Expanding layers `i..` adds the weight of their credited links to the
      total node weight. */
  lemma {:induction false} ExpandLayersTotal(g: Graph, layers: seq<Layer>, i: nat, includeSelfLinks: bool)
    requires i <= |layers|
    ensures TotalNodeWeight(ExpandLayers(g, layers, i, includeSelfLinks))
         == TotalNodeWeight(g) + CreditFrom(layers, i, includeSelfLinks)
    decreases |layers| - i
  {
    if i < |layers| {
      var lm := layers[i].links;
      var ks := LayerKeys(layers[i]);
      var g1 := ExpandLinks(g, i, ks, lm, includeSelfLinks);
      ExpandLayersTotal(g1, layers, i + 1, includeSelfLinks);
      ExpandLinksTotal(g, i, ks, lm, includeSelfLinks);
      LtPairIsStrictTotal();
      SumWhereIsSumMap(ks, lm, CreditsAny(includeSelfLinks), LtPair);
    }
  }

  /** generateMemoryNetwork's first phase, from an empty memory network: its
      total node weight is the weight of all credited stored links. */
  function IntraPhase(layers: seq<Layer>, includeSelfLinks: bool): (g: Graph)
    ensures TotalNodeWeight(g) == CreditFrom(layers, 0, includeSelfLinks)
  {
    ExpandLayersTotal(EmptyGraph, layers, 0, includeSelfLinks);
    LtStateIsStrictTotal();
    assert Sorted(EmptyGraph.nodes.Keys, LtState) == [];
    ExpandLayers(EmptyGraph, layers, 0, includeSelfLinks)
  }

  /** After the first phase the link table holds exactly the stored links
      of every layer, each as a state link inside its layer with its stored
      weight; the node table holds exactly the endpoints of those links,
      each weighted with the out-weight of its physical node in its layer;
      and the total node weight is the weight of all credited links. */
  lemma IntraPhaseEffect(layers: seq<Layer>, includeSelfLinks: bool)
    ensures var g := IntraPhase(layers, includeSelfLinks);
            && (forall l :: l in g.links <==>
                  l.src.layer < |layers| && l.dst.layer == l.src.layer && PairOf(l) in layers[l.src.layer].links)
            && (forall l | l in g.links :: g.links[l] == layers[l.src.layer].links[PairOf(l)])
            && (forall n :: n in g.nodes <==> n.layer < |layers| && IsEndpoint(layers[n.layer].links, n.phys))
            && (forall n | n in g.nodes :: g.nodes[n] == OutWeight(layers[n.layer].links, n.phys, includeSelfLinks))
  {
    ExpandLayersLinks(EmptyGraph, layers, 0, includeSelfLinks);
    ExpandLayersNodes(EmptyGraph, layers, 0, includeSelfLinks);
  }
}

=== FILE: layer_graph.dfy ===
/** A stand-in for the single-layer network container that each multiplex
    layer is stored in. The container itself is not part of this model; only
    the three operations the multiplex code calls are given meanings here,
    and those meanings are assumptions:
    - adding a link adds its weight to the entry for the ordered pair
      `(n1, n2)`, creating the entry at zero;
    - finalizing with a requested node count sets the node count to that
      request or to one more than the largest node index in use, whichever
      is larger, and leaves the links alone;
    - node display names are a sequence that is only ever moved out. */
module LayerGraph {
  import opened Ordering
  import opened Weights

  type LinkMap = map<(nat, nat), real>

  datatype Layer = Layer(links: LinkMap, numNodes: nat, names: seq<string>)

  const EmptyLayer: Layer := Layer(map[], 0, [])

  /** addLink(n1, n2, weight). */
  function AddLink(layer: Layer, n1: nat, n2: nat, w: real): (r: Layer)
    ensures Get(r.links, (n1, n2)) == Get(layer.links, (n1, n2)) + w
    ensures forall e | e != (n1, n2) :: Get(r.links, e) == Get(layer.links, e)
    ensures r.links.Keys == layer.links.Keys + {(n1, n2)}
    ensures r.numNodes == layer.numNodes && r.names == layer.names
  {
    layer.(links := AddWeight(layer.links, (n1, n2), w))
  }

  /** One more than the largest endpoint among `es`, or 0 when there is none. */
  function EndpointBound(es: seq<(nat, nat)>): (r: nat)
    ensures forall i | 0 <= i < |es| :: es[i].0 < r && es[i].1 < r
    ensures r > 0 ==> exists i | 0 <= i < |es| :: es[i].0 == r - 1 || es[i].1 == r - 1
  {
    if es == [] then 0
    else
      var here := if es[0].0 < es[0].1 then es[0].1 + 1 else es[0].0 + 1;
      var rest := EndpointBound(es[1..]);
      if here < rest then rest else here
  }

  /** The least node count that covers every endpoint of the layer's links. */
  function NodeBound(links: LinkMap): (r: nat)
    ensures forall e | e in links :: e.0 < r && e.1 < r
    ensures r > 0 ==> exists e | e in links :: e.0 == r - 1 || e.1 == r - 1
  {
    LtPairIsStrictTotal();
    var es := Sorted(links.Keys, LtPair);
    var r := EndpointBound(es);
    assert forall e | e in links :: e in es;
    r
  }

  /** The layer's node count covers all its links. */
  predicate Finalized(layer: Layer)
  {
    layer.numNodes >= NodeBound(layer.links)
  }

  /** finalizeAndCheckNetwork(minNodes). */
  function Finalize(layer: Layer, minNodes: nat): (r: Layer)
    ensures r.links == layer.links && r.names == layer.names
    ensures Finalized(r) && r.numNodes >= minNodes
    ensures minNodes >= NodeBound(layer.links) ==> r.numNodes == minNodes
  {
    var bound := NodeBound(layer.links);
    layer.(numNodes := if minNodes < bound then bound else minNodes)
  }
}

=== FILE: link_parser.dfy ===
/** Parsing of one multiplex record line: `level n1 n2 [weight]` in the intra
    section and `node level1 level2 [weight]` in the inter section.

    The source reads the fields with formatted stream extraction. An
    `unsigned int` extraction skips leading white space and reads the longest
    run of decimal digits; it fails when there is no digit or when the value
    does not fit in 32 bits. A `double` extraction reads an optionally signed
    decimal number. Extraction stops at the first character that cannot
    continue the number, so `1 2 3.5` reads `3` as the third field and `.5`
    as the weight. */
module LinkParser {
  import opened Wrappers

  /** The values of a 32-bit `unsigned int` are the naturals below this bound. */
  const UINT_RANGE: nat := 0x1_0000_0000

  datatype MultiplexError =
    | FileFormatError(line: string)  // a record line without three unsigned integer fields
    | LayerIndexOverflow(level: nat) // a level whose `level + 1` wraps to zero
    | InputDomainError               // fewer than two layers

  /** One parsed record. */
  datatype Record =
    | IntraRecord(level: nat, n1: nat, n2: nat, weight: real)
    | InterRecord(node: nat, layer1: nat, layer2: nat, weight: real)

  /** Every integer field holds a 32-bit unsigned value. */
  predicate ValidRecord(r: Record)
  {
    match r
    case IntraRecord(level, n1, n2, _) => level < UINT_RANGE && n1 < UINT_RANGE && n2 < UINT_RANGE
    case InterRecord(node, l1, l2, _) => node < UINT_RANGE && l1 < UINT_RANGE && l2 < UINT_RANGE
  }

  predicate IsSpace(c: char)
  {
    c == ' ' || c == '\t' || c == '\n' || c == '\r' || c == '\U{0B}' || c == '\U{0C}'
  }

  predicate IsDigit(c: char)
  {
    '0' <= c <= '9'
  }

  predicate AllDigits(s: string)
  {
    forall i | 0 <= i < |s| :: IsDigit(s[i])
  }

  predicate AllSpaces(s: string)
  {
    forall i | 0 <= i < |s| :: IsSpace(s[i])
  }

  /** Drops the leading white space. */
  function SkipSpace(s: string): (r: string)
    ensures |r| <= |s| && r == s[|s| - |r|..]
    ensures r == [] || !IsSpace(r[0])
  {
    if s != [] && IsSpace(s[0]) then SkipSpace(s[1..]) else s
  }

  /** What `SkipSpace` drops is white space only. */
  lemma {:induction false} SkippedBlanks(s: string)
    ensures AllSpaces(s[..|s| - |SkipSpace(s)|])
  {
    if s != [] && IsSpace(s[0]) {
      SkippedBlanks(s[1..]);
      var k := |s| - |SkipSpace(s)|;
      assert s[1..][..k - 1] == s[1..k];
      assert forall i | 1 <= i < k :: s[..k][i] == s[1..][..k - 1][i - 1];
    }
  }

  /** The length of the run of digits that starts `s`. */
  function DigitRun(s: string): (n: nat)
    ensures n <= |s|
    ensures n == |s| || !IsDigit(s[n])
  {
    if s != [] && IsDigit(s[0]) then 1 + DigitRun(s[1..]) else 0
  }

  /** The run `DigitRun` measures is made of digits only. */
  lemma {:induction false} DigitRunDigits(s: string)
    ensures AllDigits(s[..DigitRun(s)])
  {
    if s != [] && IsDigit(s[0]) {
      DigitRunDigits(s[1..]);
      var n := DigitRun(s);
      assert forall i | 1 <= i < n :: s[..n][i] == s[1..][..n - 1][i - 1];
    }
  }

  /** The value of the digit run that starts `t`. */
  function RunValue(t: string): nat
  {
    DigitRunDigits(t);
    DecimalValue(t[..DigitRun(t)])
  }

  function DigitValue(c: char): nat
    requires IsDigit(c)
  {
    (c as int - '0' as int) as nat
  }

  function DigitChar(d: nat): (c: char)
    requires d < 10
    ensures IsDigit(c) && DigitValue(c) == d
  {
    ('0' as int + d) as char
  }

  /** The value of a string of decimal digits, most significant first. */
  function DecimalValue(ds: string): nat
    requires AllDigits(ds)
  {
    if ds == [] then 0 else 10 * DecimalValue(ds[..|ds| - 1]) + DigitValue(ds[|ds| - 1])
  }

  /** The shortest decimal numeral of `v`. */
  function Decimal(v: nat): (s: string)
    ensures |s| > 0 && AllDigits(s)
  {
    if v < 10 then [DigitChar(v)] else Decimal(v / 10) + [DigitChar(v % 10)]
  }

  lemma {:induction false} DecimalRoundTrip(v: nat)
    ensures DecimalValue(Decimal(v)) == v
  {
    if v >= 10 {
      var s := Decimal(v);
      assert s[..|s| - 1] == Decimal(v / 10);
      DecimalRoundTrip(v / 10);
    }
  }

  function Pow10(n: nat): (p: nat)
    ensures p >= 1
  {
    if n == 0 then 1 else 10 * Pow10(n - 1)
  }

  lemma {:induction false} DecimalValueBound(ds: string)
    requires AllDigits(ds)
    ensures DecimalValue(ds) < Pow10(|ds|)
  {
    if ds != [] {
      DecimalValueBound(ds[..|ds| - 1]);
    }
  }

  /** The value of the digits after a decimal point. */
  function Fraction(ds: string): (r: real)
    requires AllDigits(ds)
    ensures 0.0 <= r < 1.0
  {
    DecimalValueBound(ds);
    RatioBelowOne(DecimalValue(ds), Pow10(|ds|));
    DecimalValue(ds) as real / Pow10(|ds|) as real
  }

  lemma RatioBelowOne(a: nat, b: nat)
    requires a < b
    ensures 0.0 <= a as real / b as real < 1.0
  {
    var q := a as real / b as real;
    assert q * b as real == a as real;
  }

  /** `stream >> x` for an `unsigned int x`: the value and the unread rest of
      the text, or None when the extraction fails. */
  function ExtractUnsigned(s: string): (r: Option<(nat, string)>)
    ensures r.Some? ==> r.value.0 < UINT_RANGE && |r.value.1| < |s|
    ensures r.Some? ==>
              var t, rest := SkipSpace(s), r.value.1;
              && |rest| < |t| && t[|t| - |rest|..] == rest
              && AllDigits(t[..|t| - |rest|])
              && DecimalValue(t[..|t| - |rest|]) == r.value.0
              && (rest == [] || !IsDigit(rest[0]))
    ensures r.None? <==> var t := SkipSpace(s);
              DigitRun(t) == 0 || RunValue(t) >= UINT_RANGE
  {
    var t := SkipSpace(s);
    var n := DigitRun(t);
    if n == 0 then None
    else
      DigitRunDigits(t);
      var v := DecimalValue(t[..n]);
      assert |t| - |t[n..]| == n;
      if v < UINT_RANGE then Some((v, t[n..])) else None
  }

  /** After the blanks, an optional sign and an optional point, a digit
      follows: the text starts with a number. */
  predicate NumberAhead(s: string)
  {
    NumberStarts(SkipSpace(s))
  }

  /** After an optional sign and an optional point, a digit follows. */
  predicate NumberStarts(t: string)
  {
    var u := if |t| > 0 && (t[0] == '-' || t[0] == '+') then t[1..] else t;
    var v := if |u| > 0 && u[0] == '.' then u[1..] else u;
    |v| > 0 && IsDigit(v[0])
  }

  /** A digit run is non-empty exactly when the text starts with a digit. */
  lemma DigitRunStart(s: string)
    ensures DigitRun(s) > 0 <==> |s| > 0 && IsDigit(s[0])
  {
  }

  /** `stream >> x` for a `double x`: an optional sign, digits, and an
      optional point followed by digits, with at least one digit in all.
      It reads a value exactly when a number starts the text. */
  function ExtractReal(s: string): (r: Option<real>)
    ensures r.Some? <==> NumberAhead(s)
  {
    ReadSigned(SkipSpace(s))
  }

  /** A `double` after the white space: an optional sign, then the
      magnitude, negated for a minus sign. */
  function ReadSigned(t: string): (r: Option<real>)
    ensures r.Some? <==> NumberStarts(t)
  {
    var signed := |t| > 0 && (t[0] == '-' || t[0] == '+');
    var u := if signed then t[1..] else t;
    match ReadMagnitude(u)
    case None => None
    case Some(magnitude) => Some(if signed && t[0] == '-' then -magnitude else magnitude)
  }

  /** The unsigned part of a `double`: digits, and an optional point
      followed by digits, with at least one digit in all. It reads a value
      exactly when the text starts with a digit, or with a point and a
      digit. */
  function ReadMagnitude(u: string): (r: Option<real>)
    ensures r.Some? <==> (|u| > 0 && IsDigit(u[0])) || (|u| > 1 && u[0] == '.' && IsDigit(u[1]))
  {
    var n := DigitRun(u);
    var f := if n < |u| && u[n] == '.' then u[n + 1..] else [];
    var m := DigitRun(f);
    DigitRunStart(u);
    DigitRunStart(f);
    DigitRunDigits(u);
    DigitRunDigits(f);
    if n + m == 0 then None
    else Some(DecimalValue(u[..n]) as real + Fraction(f[..m]))
  }

  /** The optional fourth field: its value, or 1 when it is absent or
      cannot be read as a number. */
  function WeightField(s: string): (r: real)
    ensures NumberAhead(s) ==> ExtractReal(s) == Some(r)
    ensures !NumberAhead(s) ==> r == 1.0
  {
    match ExtractReal(s)
    case Some(w) => w
    case None => 1.0
  }

  /** `v -= offset` on `unsigned int`: subtraction modulo 2^32. */
  function SubtractOffset(v: nat, offset: nat): (r: nat)
    requires v < UINT_RANGE && offset < UINT_RANGE
    ensures r < UINT_RANGE
    ensures (r + offset) % UINT_RANGE == v
    ensures v >= offset ==> r == v - offset
  {
    (v - offset) % UINT_RANGE
  }

  /** The three unsigned fields (offset already subtracted) and the weight,
      shared by both record kinds. */
  function ParseFields(line: string, offset: nat): (r: Result<(nat, nat, nat, real), MultiplexError>)
    requires offset < UINT_RANGE
    ensures r.Failure? ==> r.error == FileFormatError(line)
    ensures r.Success? ==> r.value.0 < UINT_RANGE && r.value.1 < UINT_RANGE && r.value.2 < UINT_RANGE
  {
    match ExtractUnsigned(line)
    case None => Failure(FileFormatError(line))
    case Some((a, r1)) =>
      match ExtractUnsigned(r1)
      case None => Failure(FileFormatError(line))
      case Some((b, r2)) =>
        match ExtractUnsigned(r2)
        case None => Failure(FileFormatError(line))
        case Some((c, r3)) =>
          Success((SubtractOffset(a, offset), SubtractOffset(b, offset), SubtractOffset(c, offset), WeightField(r3)))
  }

  /** parseIntraLink: `level n1 n2 [weight]`. */
  function ParseIntraLink(line: string, offset: nat): (r: Result<Record, MultiplexError>)
    requires offset < UINT_RANGE
    ensures r.Failure? ==> r.error == FileFormatError(line)
    ensures r.Success? ==> r.value.IntraRecord? && ValidRecord(r.value)
  {
    var (level, n1, n2, w) :- ParseFields(line, offset);
    Success(IntraRecord(level, n1, n2, w))
  }

  /** parseInterLink: `node level1 level2 [weight]`. */
  function ParseInterLink(line: string, offset: nat): (r: Result<Record, MultiplexError>)
    requires offset < UINT_RANGE
    ensures r.Failure? ==> r.error == FileFormatError(line)
    ensures r.Success? ==> r.value.InterRecord? && ValidRecord(r.value)
  {
    var (node, l1, l2, w) :- ParseFields(line, offset);
    Success(InterRecord(node, l1, l2, w))
  }

  /** Printing an unsigned value after some white space and extracting it
      back gives the value and leaves the text that followed the numeral. */
  lemma ExtractPrinted(pad: string, v: nat, rest: string)
    requires AllSpaces(pad)
    requires v < UINT_RANGE
    requires rest == [] || !IsDigit(rest[0])
    ensures ExtractUnsigned(pad + (Decimal(v) + rest)) == Some((v, rest))
  {
    var t := Decimal(v) + rest;
    SkipSpaceOver(pad, t);
    DigitRunOver(Decimal(v), rest);
    assert t[..|Decimal(v)|] == Decimal(v);
    assert t[|Decimal(v)|..] == rest;
    DecimalRoundTrip(v);
  }

  lemma {:induction false} SkipSpaceOver(pad: string, s: string)
    requires AllSpaces(pad)
    requires s != [] && !IsSpace(s[0])
    ensures SkipSpace(pad + s) == s
  {
    if pad != [] {
      assert (pad + s)[1..] == pad[1..] + s;
      SkipSpaceOver(pad[1..], s);
    } else {
      assert pad + s == s;
    }
  }

  lemma {:induction false} DigitRunOver(ds: string, rest: string)
    requires AllDigits(ds)
    requires rest == [] || !IsDigit(rest[0])
    ensures DigitRun(ds + rest) == |ds|
  {
    if ds != [] {
      assert (ds + rest)[1..] == ds[1..] + rest;
      DigitRunOver(ds[1..], rest);
    } else {
      assert ds + rest == rest;
    }
  }

  /** A field made of digits only is read as that whole number. */
  lemma ExtractRealOfDigits(s: string, ds: string)
    requires ds != [] && AllDigits(ds)
    requires SkipSpace(s) == ds
    ensures ExtractReal(s) == Some(DecimalValue(ds) as real)
  {
    ReadDigits(ds);
  }

  lemma ReadDigits(ds: string)
    requires ds != [] && AllDigits(ds)
    ensures ReadSigned(ds) == Some(DecimalValue(ds) as real)
  {
    assert ds + ([] + ([] + [])) == ds;
    MagnitudeSpelled(ds, [], [], []);
    FractionOfNothing();
    UnsignedSteps(ds, DecimalValue(ds) as real);
  }

  /** `ReadSigned` on text without a sign reads the magnitude. */
  lemma UnsignedSteps(u: string, m: real)
    requires u != [] && u[0] != '-' && u[0] != '+'
    requires ReadMagnitude(u) == Some(m)
    ensures ReadSigned(u) == Some(m)
  {
  }

  lemma FractionOfNothing()
    ensures Fraction([]) == 0.0
  {
    assert DecimalValue([]) == 0 && Pow10(0) == 1;
  }

  /** The value of a number spelled as a sign, whole digits and fraction
      digits: the whole part plus the fraction, negated for a minus sign. */
  function SpelledValue(sign: string, ip: string, fp: string): real
    requires AllDigits(ip) && AllDigits(fp)
  {
    var magnitude := DecimalValue(ip) as real + Fraction(fp);
    if sign == "-" then -magnitude else magnitude
  }

  /** A weight spelled as blanks, an optional sign, digits, and an optional
      point followed by digits, then a tail the number does not continue
      into, is read as the signed value of its digits: the whole part plus
      the fraction. */
  lemma ExtractRealSpelled(pad: string, sign: string, ip: string, dot: string, fp: string, rest: string)
    requires AllSpaces(pad)
    requires sign == "" || sign == "-" || sign == "+"
    requires AllDigits(ip) && AllDigits(fp) && ip + fp != []
    requires dot == "." || (dot == [] && fp == [])
    requires rest == [] || !IsDigit(rest[0])
    requires dot == "." || rest == [] || rest[0] != '.'
    ensures ExtractReal(pad + sign + ip + dot + fp + rest) == Some(SpelledValue(sign, ip, fp))
  {
    var u := ip + (dot + (fp + rest));
    assert pad + sign + ip + dot + fp + rest == pad + (sign + u);
    ExtractRealNested(pad, sign, ip, dot, fp, rest);
  }

  lemma ExtractRealNested(pad: string, sign: string, ip: string, dot: string, fp: string, rest: string)
    requires AllSpaces(pad)
    requires sign == "" || sign == "-" || sign == "+"
    requires AllDigits(ip) && AllDigits(fp) && ip + fp != []
    requires dot == "." || (dot == [] && fp == [])
    requires rest == [] || !IsDigit(rest[0])
    requires dot == "." || rest == [] || rest[0] != '.'
    ensures ExtractReal(pad + (sign + (ip + (dot + (fp + rest))))) == Some(SpelledValue(sign, ip, fp))
  {
    var u := ip + (dot + (fp + rest));
    var t := sign + u;
    assert u[0] == if ip != [] then ip[0] else '.';
    assert t[0] == if sign != [] then sign[0] else u[0];
    SkipSpaceOver(pad, t);
    MagnitudeSpelled(ip, dot, fp, rest);
    SignSteps(sign, u, ip, fp);
  }

  /** `ReadSigned` once the sign and the magnitude after it are known. */
  lemma SignSteps(sign: string, u: string, ip: string, fp: string)
    requires sign == "" || sign == "-" || sign == "+"
    requires u != [] && u[0] != '-' && u[0] != '+'
    requires AllDigits(ip) && AllDigits(fp)
    requires ReadMagnitude(u) == Some(DecimalValue(ip) as real + Fraction(fp))
    ensures ReadSigned(sign + u) == Some(SpelledValue(sign, ip, fp))
  {
    var m := DecimalValue(ip) as real + Fraction(fp);
    if sign == "-" {
      SignedSteps(sign, u, m);
      assert SpelledValue(sign, ip, fp) == -m;
    } else if sign == "+" {
      SignedSteps(sign, u, m);
      assert SpelledValue(sign, ip, fp) == m;
    } else {
      assert sign + u == u;
      UnsignedSteps(u, m);
      assert SpelledValue(sign, ip, fp) == m;
    }
  }

  /** `ReadSigned` on a sign character followed by the magnitude. */
  lemma SignedSteps(sign: string, u: string, m: real)
    requires sign == "-" || sign == "+"
    requires u != [] && ReadMagnitude(u) == Some(m)
    ensures ReadSigned(sign + u) == Some(if sign == "-" then -m else m)
  {
    var t := sign + u;
    assert t[0] == sign[0] && t[1..] == u;
  }

  /** Digits, an optional point and more digits are read as the whole part
      plus the fraction. */
  lemma MagnitudeSpelled(ip: string, dot: string, fp: string, rest: string)
    requires AllDigits(ip) && AllDigits(fp) && ip + fp != []
    requires dot == "." || (dot == [] && fp == [])
    requires rest == [] || !IsDigit(rest[0])
    requires dot == "." || rest == [] || rest[0] != '.'
    ensures ReadMagnitude(ip + (dot + (fp + rest))) == Some(DecimalValue(ip) as real + Fraction(fp))
  {
    var tail := dot + (fp + rest);
    var u := ip + tail;
    assert dot == [] ==> tail == rest;
    assert dot == "." ==> tail[0] == '.' && tail[1..] == fp + rest;
    DigitRunOver(ip, tail);
    assert u[..|ip|] == ip && u[|ip|..] == tail;
    var f: string := if |ip| < |u| && u[|ip|] == '.' then u[|ip| + 1..] else [];
    if dot == "." {
      assert u[|ip| + 1..] == fp + rest;
      DigitRunOver(fp, rest);
      assert f[..|fp|] == fp;
    } else {
      assert f == [] && fp == [];
    }
    MagnitudeSteps(u, f, ip, fp);
  }

  /** `ReadMagnitude` once its two digit runs are known. */
  lemma MagnitudeSteps(u: string, f: string, ip: string, fp: string)
    requires AllDigits(ip) && AllDigits(fp) && |ip| + |fp| > 0
    requires DigitRun(u) == |ip| && u[..|ip|] == ip
    requires f == if |ip| < |u| && u[|ip|] == '.' then u[|ip| + 1..] else []
    requires DigitRun(f) == |fp| && f[..|fp|] == fp
    ensures ReadMagnitude(u) == Some(DecimalValue(ip) as real + Fraction(fp))
  {
    var n := DigitRun(u);
    var f' := if n < |u| && u[n] == '.' then u[n + 1..] else [];
    assert f' == f;
    var m := DigitRun(f');
    assert n + m != 0;
    assert u[..n] == ip;
    assert f'[..m] == fp;
    var x := DecimalValue(u[..n]) as real + Fraction(f'[..m]);
    assert x == DecimalValue(ip) as real + Fraction(fp);
    assert ReadMagnitude(u) == Some(x);
  }

  /** The text of an optional fourth field holding a whole number. */
  function PrintWeight(v: nat): string
  {
    " " + Decimal(v)
  }

  /** A whole-number weight printed after the fields is read back exactly. */
  lemma WeightOfPrinted(v: nat)
    ensures WeightField(PrintWeight(v)) == v as real
  {
    var u := Decimal(v);
    var sp: string := " ";
    assert AllSpaces(sp);
    SkipSpaceOver(sp, u);
    assert PrintWeight(v) == sp + u;
    ExtractRealOfDigits(sp + u, u);
    DecimalRoundTrip(v);
  }

  /** The text of a record line holding three printed values. */
  function PrintFields(a: nat, b: nat, c: nat): string
  {
    Decimal(a) + " " + Decimal(b) + " " + Decimal(c)
  }

  lemma ParsePrinted(a: nat, b: nat, c: nat, tail: string, offset: nat)
    requires a < UINT_RANGE && b < UINT_RANGE && c < UINT_RANGE && offset < UINT_RANGE
    requires tail == [] || !IsDigit(tail[0])
    ensures ParseFields(PrintFields(a, b, c) + tail, offset)
         == Success((SubtractOffset(a, offset), SubtractOffset(b, offset), SubtractOffset(c, offset), WeightField(tail)))
  {
    var da, db, dc := Decimal(a), Decimal(b), Decimal(c);
    var sp: string := " ";
    assert AllSpaces(sp);
    var r2 := sp + (dc + tail);
    assert r2[0] == ' ';
    var r1 := sp + (db + r2);
    assert r1[0] == ' ';
    var line := [] + (da + r1);
    assert PrintFields(a, b, c) + tail == line;
    ExtractPrinted([], a, r1);
    ExtractPrinted(sp, b, r2);
    ExtractPrinted(sp, c, tail);
    ParseFieldsSteps(line, r1, r2, tail, a, b, c, offset);
  }

  lemma ParseFieldsSteps(line: string, r1: string, r2: string, r3: string, a: nat, b: nat, c: nat, offset: nat)
    requires a < UINT_RANGE && b < UINT_RANGE && c < UINT_RANGE && offset < UINT_RANGE
    requires ExtractUnsigned(line) == Some((a, r1))
    requires ExtractUnsigned(r1) == Some((b, r2))
    requires ExtractUnsigned(r2) == Some((c, r3))
    ensures ParseFields(line, offset)
         == Success((SubtractOffset(a, offset), SubtractOffset(b, offset), SubtractOffset(c, offset), WeightField(r3)))
  {
  }

  /** A record line of three printed values parses, with the offset
      subtracted from each value and the weight defaulted to 1. */
  lemma ParseFieldsWithoutWeight(a: nat, b: nat, c: nat, offset: nat)
    requires a < UINT_RANGE && b < UINT_RANGE && c < UINT_RANGE && offset < UINT_RANGE
    ensures ParseFields(PrintFields(a, b, c), offset)
         == Success((SubtractOffset(a, offset), SubtractOffset(b, offset), SubtractOffset(c, offset), 1.0))
  {
    var line := PrintFields(a, b, c);
    assert line + [] == line;
    ParsePrinted(a, b, c, [], offset);
    WeightOfNothing();
  }

  /** An empty fourth field leaves the weight at 1. */
  lemma WeightOfNothing()
    ensures WeightField([]) == 1.0
  {
    assert SkipSpace([]) == [];
    assert !NumberStarts([]);
  }

  /** A record line with a whole-number fourth field parses to that weight. */
  lemma ParseFieldsWithWeight(a: nat, b: nat, c: nat, w: nat, offset: nat)
    requires a < UINT_RANGE && b < UINT_RANGE && c < UINT_RANGE && offset < UINT_RANGE
    ensures ParseFields(PrintFields(a, b, c) + PrintWeight(w), offset)
         == Success((SubtractOffset(a, offset), SubtractOffset(b, offset), SubtractOffset(c, offset), w as real))
  {
    var tail := PrintWeight(w);
    assert tail[0] == ' ';
    ParsePrinted(a, b, c, tail, offset);
    WeightOfPrinted(w);
  }

  /** A record line whose text after the third field does not start with a
      number, such as `1 2 3 x` or `1 2 3 -`, parses with weight 1. */
  lemma ParseFieldsWithUnreadableWeight(a: nat, b: nat, c: nat, tail: string, offset: nat)
    requires a < UINT_RANGE && b < UINT_RANGE && c < UINT_RANGE && offset < UINT_RANGE
    requires tail == [] || !IsDigit(tail[0])
    requires !NumberAhead(tail)
    ensures ParseFields(PrintFields(a, b, c) + tail, offset)
         == Success((SubtractOffset(a, offset), SubtractOffset(b, offset), SubtractOffset(c, offset), 1.0))
  {
    ParsePrinted(a, b, c, tail, offset);
  }

  /** A field as the stream reads it: a non-empty run of digits, leading
      zeros allowed, whose value fits in 32 bits. */
  predicate Field(ds: string)
  {
    ds != [] && AllDigits(ds) && DecimalValue(ds) < UINT_RANGE
  }

  /** Text an `unsigned int` extraction rejects: after the blanks comes no
      sign, and no digit run whose value fits in 32 bits. */
  predicate NoField(s: string)
  {
    var t := SkipSpace(s);
    && (t == [] || (t[0] != '+' && t[0] != '-'))
    && (DigitRun(t) == 0 || RunValue(t) >= UINT_RANGE)
  }

  /** A field after blanks is read as its decimal value, and the extraction
      stops right after it. */
  lemma ExtractField(pad: string, ds: string, rest: string)
    requires AllSpaces(pad) && Field(ds)
    requires rest == [] || !IsDigit(rest[0])
    ensures ExtractUnsigned(pad + (ds + rest)) == Some((DecimalValue(ds), rest))
  {
    var t := ds + rest;
    assert t[0] == ds[0];
    SkipSpaceOver(pad, t);
    DigitRunOver(ds, rest);
    assert t[..|ds|] == ds;
    assert t[|ds|..] == rest;
  }

  /** Any record line of three fields separated by blanks, with any blanks
      in front and any text after that does not continue the third field,
      parses to the three values minus the offset and the weight the text
      after them gives. */
  lemma ParseSpelled(p0: string, d0: string, p1: string, d1: string, p2: string, d2: string, tail: string, offset: nat)
    requires offset < UINT_RANGE
    requires AllSpaces(p0) && AllSpaces(p1) && AllSpaces(p2) && p1 != [] && p2 != []
    requires Field(d0) && Field(d1) && Field(d2)
    requires tail == [] || !IsDigit(tail[0])
    ensures ParseFields(p0 + d0 + p1 + d1 + p2 + d2 + tail, offset)
         == Success((SubtractOffset(DecimalValue(d0), offset), SubtractOffset(DecimalValue(d1), offset),
                     SubtractOffset(DecimalValue(d2), offset), WeightField(tail)))
  {
    var r2 := p2 + (d2 + tail);
    var r1 := p1 + (d1 + r2);
    Regroup(p0 + d0 + p1 + d1, p2, d2, tail);
    Regroup(p0 + d0, p1, d1, r2);
    Regroup3(p0, d0, r1);
    ParseNested(p0, d0, p1, d1, p2, d2, tail, offset);
  }

  lemma ParseNested(p0: string, d0: string, p1: string, d1: string, p2: string, d2: string, tail: string, offset: nat)
    requires offset < UINT_RANGE
    requires AllSpaces(p0) && AllSpaces(p1) && AllSpaces(p2) && p1 != [] && p2 != []
    requires Field(d0) && Field(d1) && Field(d2)
    requires tail == [] || !IsDigit(tail[0])
    ensures ParseFields(p0 + (d0 + (p1 + (d1 + (p2 + (d2 + tail))))), offset)
         == Success((SubtractOffset(DecimalValue(d0), offset), SubtractOffset(DecimalValue(d1), offset),
                     SubtractOffset(DecimalValue(d2), offset), WeightField(tail)))
  {
    var r2 := p2 + (d2 + tail);
    BlanksFirst(p2, d2 + tail);
    var r1 := p1 + (d1 + r2);
    BlanksFirst(p1, d1 + r2);
    var line := p0 + (d0 + r1);
    ExtractField(p0, d0, r1);
    ExtractField(p1, d1, r2);
    ExtractField(p2, d2, tail);
    ParseFieldsSteps(line, r1, r2, tail, DecimalValue(d0), DecimalValue(d1), DecimalValue(d2), offset);
  }

  lemma Regroup3(a: string, b: string, c: string)
    ensures a + b + c == a + (b + c)
  {
  }

  lemma Regroup(a: string, b: string, c: string, d: string)
    ensures a + b + c + d == a + (b + (c + d))
  {
  }

  /** A line whose first field is missing or does not fit in 32 bits is a
      format error in either section. */
  lemma BadFirstFieldFails(line: string, offset: nat)
    requires offset < UINT_RANGE
    requires NoField(line)
    ensures ParseIntraLink(line, offset) == Failure(FileFormatError(line))
    ensures ParseInterLink(line, offset) == Failure(FileFormatError(line))
  {
  }

  /** A line whose second field is missing or does not fit in 32 bits, such
      as `1 x 3`, is a format error. */
  lemma BadSecondFieldFails(p0: string, d0: string, rest: string, offset: nat)
    requires offset < UINT_RANGE
    requires AllSpaces(p0) && Field(d0)
    requires rest == [] || !IsDigit(rest[0])
    requires NoField(rest)
    ensures ParseFields(p0 + d0 + rest, offset) == Failure(FileFormatError(p0 + d0 + rest))
  {
    Regroup3(p0, d0, rest);
    NoFieldRejected(rest);
    SecondNested(p0, d0, rest, offset);
  }

  lemma SecondNested(p0: string, d0: string, rest: string, offset: nat)
    requires offset < UINT_RANGE
    requires AllSpaces(p0) && Field(d0)
    requires rest == [] || !IsDigit(rest[0])
    requires ExtractUnsigned(rest).None?
    ensures ParseFields(p0 + (d0 + rest), offset) == Failure(FileFormatError(p0 + (d0 + rest)))
  {
    ExtractField(p0, d0, rest);
    SecondFieldFailSteps(p0 + (d0 + rest), rest, DecimalValue(d0), offset);
  }

  /** A line whose third field is missing or does not fit in 32 bits, such
      as `1 2 4294967296`, is a format error. */
  lemma BadThirdFieldFails(p0: string, d0: string, p1: string, d1: string, rest: string, offset: nat)
    requires offset < UINT_RANGE
    requires AllSpaces(p0) && AllSpaces(p1) && p1 != []
    requires Field(d0) && Field(d1)
    requires rest == [] || !IsDigit(rest[0])
    requires NoField(rest)
    ensures ParseFields(p0 + d0 + p1 + d1 + rest, offset) == Failure(FileFormatError(p0 + d0 + p1 + d1 + rest))
  {
    var r1 := p1 + (d1 + rest);
    Regroup(p0 + d0, p1, d1, rest);
    Regroup3(p0, d0, r1);
    NoFieldRejected(rest);
    ThirdNested(p0, d0, p1, d1, rest, offset);
  }

  lemma ThirdNested(p0: string, d0: string, p1: string, d1: string, rest: string, offset: nat)
    requires offset < UINT_RANGE
    requires AllSpaces(p0) && AllSpaces(p1) && p1 != []
    requires Field(d0) && Field(d1)
    requires rest == [] || !IsDigit(rest[0])
    requires ExtractUnsigned(rest).None?
    ensures var line := p0 + (d0 + (p1 + (d1 + rest)));
            ParseFields(line, offset) == Failure(FileFormatError(line))
  {
    var r1 := p1 + (d1 + rest);
    BlanksFirst(p1, d1 + rest);
    var line := p0 + (d0 + r1);
    ExtractField(p0, d0, r1);
    ExtractField(p1, d1, rest);
    ThirdFieldFailSteps(line, r1, rest, DecimalValue(d0), DecimalValue(d1), offset);
  }

  /** Text that starts with blanks does not start with a digit. */
  lemma BlanksFirst(p: string, s: string)
    requires AllSpaces(p) && p != []
    ensures (p + s)[0] == p[0] && !IsDigit((p + s)[0])
  {
    assert IsSpace(p[0]);
  }

  /** Text without a readable field makes the extraction fail. */
  lemma NoFieldRejected(s: string)
    requires NoField(s)
    ensures ExtractUnsigned(s).None?
  {
  }

  lemma ThirdFieldFailSteps(line: string, r1: string, r2: string, a: nat, b: nat, offset: nat)
    requires offset < UINT_RANGE
    requires ExtractUnsigned(line) == Some((a, r1))
    requires ExtractUnsigned(r1) == Some((b, r2))
    requires ExtractUnsigned(r2).None?
    ensures ParseFields(line, offset) == Failure(FileFormatError(line))
  {
  }

  lemma SecondFieldFailSteps(line: string, r1: string, a: nat, offset: nat)
    requires offset < UINT_RANGE
    requires ExtractUnsigned(line) == Some((a, r1))
    requires ExtractUnsigned(r1).None?
    ensures ParseFields(line, offset) == Failure(FileFormatError(line))
  {
  }
}

=== FILE: memory_graph.dfy ===
/** The memory network's vocabulary: state nodes (a physical node as seen
    from one layer), state links between them, and the two weight tables the
    generator fills in, one for links and one for nodes.

    The state-node type and its insertion primitives belong to the memory
    network container, which is not part of this model. The meanings given
    here are assumptions: state nodes are ordered by layer and then by
    physical index, inserting a link adds its weight to the entry for that
    link (creating it at zero), and adding a node adds its weight to the
    entry for that node (creating it at zero). */
module MemoryGraph {
  import opened Ordering
  import opened Weights

  /** M2Node(priorState, physIndex). */
  datatype StateNode = StateNode(layer: nat, phys: nat)

  /** The assumed order on state nodes: by layer, then by physical index. */
  predicate LtState(a: StateNode, b: StateNode)
  {
    a.layer < b.layer || (a.layer == b.layer && a.phys < b.phys)
  }

  lemma LtStateIsStrictTotal()
    ensures StrictTotalOrder(LtState)
  {
  }

  /** A directed link between two state nodes. */
  datatype StateLink = StateLink(src: StateNode, dst: StateNode)

  /** The link table and the node table of the memory network. */
  datatype Graph = Graph(links: map<StateLink, real>, nodes: map<StateNode, real>)

  const EmptyGraph: Graph := Graph(map[], map[])

  /** insertM2Link(src, dst, w). */
  function InsertLink(g: Graph, src: StateNode, dst: StateNode, w: real): (r: Graph)
    ensures r.nodes == g.nodes
    ensures r.links.Keys == g.links.Keys + {StateLink(src, dst)}
    ensures Get(r.links, StateLink(src, dst)) == Get(g.links, StateLink(src, dst)) + w
    ensures forall l | l != StateLink(src, dst) :: Get(r.links, l) == Get(g.links, l)
  {
    g.(links := AddWeight(g.links, StateLink(src, dst), w))
  }

  /** addM2Node(n, w). */
  function AddNode(g: Graph, n: StateNode, w: real): (r: Graph)
    ensures r.links == g.links
    ensures r.nodes.Keys == g.nodes.Keys + {n}
    ensures Get(r.nodes, n) == Get(g.nodes, n) + w
    ensures forall n' | n' != n :: Get(r.nodes, n') == Get(g.nodes, n')
  {
    g.(nodes := AddWeight(g.nodes, n, w))
  }

  /** The total of a table keyed by state nodes, summed in node order. */
  function StateTotal(m: map<StateNode, real>): real
  {
    LtStateIsStrictTotal();
    SumMap(m, LtState)
  }

  /** The total weight of all state nodes. */
  function TotalNodeWeight(g: Graph): real
  {
    StateTotal(g.nodes)
  }

  /** Adding weight to one node adds exactly that weight to the total. */
  lemma TotalAfterAddNode(g: Graph, n: StateNode, w: real)
    ensures TotalNodeWeight(AddNode(g, n, w)) == TotalNodeWeight(g) + w
  {
    LtStateIsStrictTotal();
    SumMapAdd(g.nodes, n, w, LtState);
  }
}

=== FILE: memory_network.dfy ===
/** generateMemoryNetwork as a whole, and parseMultiplexNetwork followed by
    it: reconcile the layers, expand the intra links, redistribute the
    inter links in key order, and number the state nodes. */
module Generator {
  import opened Wrappers
  import opened Ordering
  import opened Weights
  import opened LinkParser
  import opened LayerGraph
  import opened MultiplexParser
  import opened MemoryGraph
  import opened IntraExpansion
  import opened Redistribution
  import opened Reconciliation
  import opened Indexing

  /** The assumed order on inter-link keys: by node, then first layer, then
      second layer. */
  predicate LtKey(a: InterLinkKey, b: InterLinkKey)
  {
    || a.node < b.node
    || (a.node == b.node && a.layer1 < b.layer1)
    || (a.node == b.node && a.layer1 == b.layer1 && a.layer2 < b.layer2)
  }

  lemma LtKeyIsStrictTotal()
    ensures StrictTotalOrder(LtKey)
  {
  }

  /** The inter-link keys in the order the table is walked. */
  function InterOrder(table: map<InterLinkKey, real>): (r: seq<InterLinkKey>)
    ensures Distinct(r) && forall k :: k in r <==> k in table
  {
    LtKeyIsStrictTotal();
    var r := Sorted(table.Keys, LtKey);
    AscendingIsDistinct(r, LtKey);
    r
  }

  /** The memory network the two phases build from reconciled layers; its
      total node weight is the weight of all credited stored links, since
      the second phase adds no node weight. */
  function MemoryGraphOf(layers: seq<Layer>, table: map<InterLinkKey, real>, includeSelfLinks: bool): (g: Graph)
    ensures TotalNodeWeight(g) == CreditFrom(layers, 0, includeSelfLinks)
  {
    InterPhase(IntraPhase(layers, includeSelfLinks), InterOrder(table), table)
  }

  /** The out-links of physical node `src.phys` stored in layer `src.layer`,
      as a table from target state nodes to weights; empty when there is no
      such layer. */
  function LayerOut(layers: seq<Layer>, src: StateNode): (r: map<StateNode, real>)
    ensures forall t :: t in r <==>
              src.layer < |layers| && t.layer == src.layer && (src.phys, t.phys) in layers[src.layer].links
    ensures forall t | t in r :: r[t] == layers[src.layer].links[(src.phys, t.phys)]
  {
    if src.layer < |layers| then
      var lm := layers[src.layer].links;
      var r := map e | e in lm && e.0 == src.phys :: StateNode(src.layer, e.1) := lm[e];
      assert forall t: StateNode | t.layer == src.layer && (src.phys, t.phys) in lm :: t in r by {
        forall t: StateNode | t.layer == src.layer && (src.phys, t.phys) in lm
          ensures t in r
        {
          assert StateNode(src.layer, (src.phys, t.phys).1) == t;
        }
      }
      r
    else map[]
  }

  /** After the first phase, the in-layer out-links of a state node are
      the stored out-links of its physical node in its layer. */
  lemma IntraOutLinks(layers: seq<Layer>, includeSelfLinks: bool, src: StateNode)
    ensures OutLinksWithin(IntraPhase(layers, includeSelfLinks).links, src) == LayerOut(layers, src)
  {
    var g := IntraPhase(layers, includeSelfLinks);
    var x, y := OutLinksWithin(g.links, src), LayerOut(layers, src);
    forall t
      ensures (t in x <==> t in y) && Get(x, t) == Get(y, t)
    {
      IntraLinkAt(layers, includeSelfLinks, StateLink(src, t));
    }
    TablesEqual(x, y);
  }

  /** One state link after the first phase. */
  lemma IntraLinkAt(layers: seq<Layer>, includeSelfLinks: bool, l: StateLink)
    ensures var g := IntraPhase(layers, includeSelfLinks);
            && (l in g.links <==> l.src.layer < |layers| && l.dst.layer == l.src.layer && PairOf(l) in layers[l.src.layer].links)
            && (l in g.links ==> g.links[l] == layers[l.src.layer].links[PairOf(l)])
  {
    IntraPhaseEffect(layers, includeSelfLinks);
  }

  /** The shares inter entry `key` hands out: its weight split over the
      stored out-links of the node in the second layer. */
  function EntryShares(layers: seq<Layer>, table: map<InterLinkKey, real>, key: InterLinkKey): map<StateNode, real>
  {
    Shares(LayerOut(layers, StateNode(key.layer2, key.node)), Get(table, key))
  }

  /** The link table of the memory network: a link inside a layer is a
      stored link of that layer with its stored weight; a link across layers
      exists exactly when the inter entry it belongs to gives its target a
      share, and carries that share. */
  lemma MemoryLinkAt(layers: seq<Layer>, table: map<InterLinkKey, real>, includeSelfLinks: bool, l: StateLink)
    ensures var g := MemoryGraphOf(layers, table, includeSelfLinks);
            && (l.src.layer == l.dst.layer ==>
                  && (l in g.links <==> l.src.layer < |layers| && PairOf(l) in layers[l.src.layer].links)
                  && (l in g.links ==> g.links[l] == layers[l.src.layer].links[PairOf(l)]))
            && (l.src.layer != l.dst.layer ==>
                  && (l in g.links <==> KeyFor(l) in table && l.dst in EntryShares(layers, table, KeyFor(l)))
                  && Get(g.links, l) == (if KeyFor(l) in table then Get(EntryShares(layers, table, KeyFor(l)), l.dst) else 0.0))
  {
    if l.src.layer == l.dst.layer {
      LinkWithin(layers, table, includeSelfLinks, l);
    } else {
      LinkAcross(layers, table, includeSelfLinks, l);
    }
  }

  lemma LinkWithin(layers: seq<Layer>, table: map<InterLinkKey, real>, includeSelfLinks: bool, l: StateLink)
    requires l.src.layer == l.dst.layer
    ensures var g := MemoryGraphOf(layers, table, includeSelfLinks);
            && (l in g.links <==> l.src.layer < |layers| && PairOf(l) in layers[l.src.layer].links)
            && (l in g.links ==> g.links[l] == layers[l.src.layer].links[PairOf(l)])
  {
    var g1 := IntraPhase(layers, includeSelfLinks);
    IntraPhaseEffect(layers, includeSelfLinks);
    InterPhaseLinkAt(g1, InterOrder(table), table, l);
  }

  lemma LinkAcross(layers: seq<Layer>, table: map<InterLinkKey, real>, includeSelfLinks: bool, l: StateLink)
    requires l.src.layer != l.dst.layer
    ensures var g := MemoryGraphOf(layers, table, includeSelfLinks);
            && (l in g.links <==> KeyFor(l) in table && l.dst in EntryShares(layers, table, KeyFor(l)))
            && Get(g.links, l) == (if KeyFor(l) in table then Get(EntryShares(layers, table, KeyFor(l)), l.dst) else 0.0)
  {
    var g1 := IntraPhase(layers, includeSelfLinks);
    IntraPhaseEffect(layers, includeSelfLinks);
    InterPhaseLinkAt(g1, InterOrder(table), table, l);
    IntraOutLinks(layers, includeSelfLinks, StateNode(l.dst.layer, l.src.phys));
    assert l !in g1.links;
  }

  /** The links an inter entry `(v, l1, l2)` with `l1 != l2` adds are the
      only links from `(l1, v)` into layer `l2`, and they are its shares. */
  lemma EntryLinks(layers: seq<Layer>, table: map<InterLinkKey, real>, includeSelfLinks: bool, key: InterLinkKey)
    requires key in table && key.layer1 != key.layer2
    ensures LinksInto(MemoryGraphOf(layers, table, includeSelfLinks).links, SourceOf(key), key.layer2)
            == EntryShares(layers, table, key)
  {
    var g := MemoryGraphOf(layers, table, includeSelfLinks);
    var x, y := LinksInto(g.links, SourceOf(key), key.layer2), EntryShares(layers, table, key);
    forall t
      ensures SameAt(x, y, t)
    {
      EntryLinkAt(layers, table, includeSelfLinks, key, t);
    }
    SameEverywhere(x, y);
  }

  lemma EntryLinkAt(layers: seq<Layer>, table: map<InterLinkKey, real>, includeSelfLinks: bool, key: InterLinkKey, t: StateNode)
    requires key in table && key.layer1 != key.layer2
    ensures var x := LinksInto(MemoryGraphOf(layers, table, includeSelfLinks).links, SourceOf(key), key.layer2);
            var y := EntryShares(layers, table, key);
            (t in x <==> t in y) && Get(x, t) == Get(y, t)
  {
    var l := StateLink(SourceOf(key), t);
    MemoryLinkAt(layers, table, includeSelfLinks, l);
    SharesKeys(LayerOut(layers, StateNode(key.layer2, key.node)), Get(table, key));
    if t.layer == key.layer2 {
      assert KeyFor(l) == key;
    }
  }

  /** Redistribution conserves each inter entry's weight: when the stored
      out-links of `(l2, v)` have a nonzero total, the links from `(l1, v)`
      into layer `l2` add up to the entry's weight. */
  lemma EntryConserved(layers: seq<Layer>, table: map<InterLinkKey, real>, includeSelfLinks: bool, key: InterLinkKey)
    requires key in table && key.layer1 != key.layer2
    requires StateTotal(LayerOut(layers, StateNode(key.layer2, key.node))) != 0.0
    ensures StateTotal(LinksInto(MemoryGraphOf(layers, table, includeSelfLinks).links, SourceOf(key), key.layer2)) == table[key]
  {
    EntryLinks(layers, table, includeSelfLinks, key);
    SharesSum(LayerOut(layers, StateNode(key.layer2, key.node)), table[key]);
  }

  /** An entry whose two layers agree, or whose second-layer node has no
      stored out-links with a nonzero total, adds no links at all. */
  lemma EntryWithoutLinks(layers: seq<Layer>, table: map<InterLinkKey, real>, includeSelfLinks: bool, key: InterLinkKey, l: StateLink)
    requires key in table && KeyFor(l) == key
    requires key.layer1 == key.layer2 || StateTotal(LayerOut(layers, StateNode(key.layer2, key.node))) == 0.0
    ensures l in MemoryGraphOf(layers, table, includeSelfLinks).links <==>
            key.layer1 == key.layer2 && l.src.layer < |layers| && PairOf(l) in layers[l.src.layer].links
  {
    MemoryLinkAt(layers, table, includeSelfLinks, l);
    SharesKeys(LayerOut(layers, StateNode(key.layer2, key.node)), Get(table, key));
  }

  /** Some inter entry across layers registers `n` as its source because
      it hands out a share. */
  predicate EntrySource(layers: seq<Layer>, table: map<InterLinkKey, real>, n: StateNode)
  {
    exists k | k in table :: k.layer1 != k.layer2 && n == SourceOf(k) && EntryShares(layers, table, k) != map[]
  }

  /** A state node of the memory network: it is an endpoint of a stored
      link, weighted with the out-weight of its physical node in its layer,
      or the source of an inter entry that hands out some share, with
      weight 0. */
  lemma MemoryNodeAt(layers: seq<Layer>, table: map<InterLinkKey, real>, includeSelfLinks: bool, n: StateNode)
    ensures var g := MemoryGraphOf(layers, table, includeSelfLinks);
            && (n in g.nodes <==>
                  (n.layer < |layers| && IsEndpoint(layers[n.layer].links, n.phys)) || EntrySource(layers, table, n))
            && Get(g.nodes, n) ==
                  if n.layer < |layers| && IsEndpoint(layers[n.layer].links, n.phys)
                  then OutWeight(layers[n.layer].links, n.phys, includeSelfLinks) else 0.0
  {
    var g1 := IntraPhase(layers, includeSelfLinks);
    IntraPhaseEffect(layers, includeSelfLinks);
    InterPhaseNodeAt(g1, InterOrder(table), table, n);
    RegisteredIsEntrySource(layers, table, includeSelfLinks, n);
  }

  lemma RegisteredIsEntrySource(layers: seq<Layer>, table: map<InterLinkKey, real>, includeSelfLinks: bool, n: StateNode)
    ensures Registered(IntraPhase(layers, includeSelfLinks).links, InterOrder(table), table, n) <==> EntrySource(layers, table, n)
  {
    var g1 := IntraPhase(layers, includeSelfLinks);
    forall k | k in table
      ensures SharesFor(g1.links, k, Get(table, k)) == EntryShares(layers, table, k)
    {
      IntraOutLinks(layers, includeSelfLinks, StateNode(k.layer2, k.node));
    }
  }

  /** Walking the inter entries in any order without repeats builds the
      same memory network as walking them in key order. */
  lemma AnyInterOrder(layers: seq<Layer>, table: map<InterLinkKey, real>, includeSelfLinks: bool, ks: seq<InterLinkKey>)
    requires Distinct(ks) && forall k :: k in ks <==> k in table
    ensures InterPhase(IntraPhase(layers, includeSelfLinks), ks, table) == MemoryGraphOf(layers, table, includeSelfLinks)
  {
    InterPhaseOrderIndependent(IntraPhase(layers, includeSelfLinks), ks, InterOrder(table), table);
  }

  /** The memory network and what generateMemoryNetwork records about it. */
  datatype MemoryNetwork = MemoryNetwork(
    numNodes: nat,
    nodeNames: seq<string>,
    layers: seq<Layer>,
    graph: Graph,
    index: map<StateNode, nat>,
    weights: seq<real>,
    total: real)

  /** What generateMemoryNetwork makes of the parsed network `m`: every
      layer is brought to the largest node count with its links kept, the
      display names are handed over, the memory graph is built from the
      reconciled layers, its nodes are numbered in order, the weight vector
      follows that numbering, and the total is the weight the layers credit. */
  predicate Generated(m: Multiplex, names: seq<string>, includeSelfLinks: bool, net: MemoryNetwork)
  {
    && |net.layers| == |m.layers|
    && (forall k | 0 <= k < |m.layers| :: m.layers[k].numNodes <= net.numNodes)
    && (exists k | 0 <= k < |m.layers| :: m.layers[k].numNodes == net.numNodes)
    && (forall k | 0 <= k < |net.layers| :: net.layers[k].numNodes == net.numNodes && net.layers[k].links == m.layers[k].links)
    && (forall k | 0 <= k < |net.layers| && m.layers[k].numNodes == net.numNodes ::
          net.layers[k] == m.layers[k].(names := net.layers[k].names))
    && NamesHandedOver(m.layers, names, net.layers, net.nodeNames)
    && net.graph == MemoryGraphOf(net.layers, m.interLinks, includeSelfLinks)
    && OrderedNumbering(net.index, net.graph.nodes)
    && |net.weights| == |net.graph.nodes|
    && (forall n | n in net.graph.nodes :: net.weights[net.index[n]] == net.graph.nodes[n])
    && net.total == CreditFrom(m.layers, 0, includeSelfLinks)
  }

  /** generateMemoryNetwork. `names` is the node-name list held before the
      call; `includeSelfLinks` is the configuration flag. */
  method GenerateMemoryNetwork(m: Multiplex, names: seq<string>, includeSelfLinks: bool) returns (net: MemoryNetwork)
    requires |m.layers| > 0
    requires forall k | 0 <= k < |m.layers| :: Finalized(m.layers[k])
    ensures Generated(m, names, includeSelfLinks, net)
  {
    var layers, numNodes, names', different := Reconcile(m.layers, names);
    var g := MemoryGraphOf(layers, m.interLinks, includeSelfLinks);
    var index, weights, total := AssignIndices(g.nodes);
    SameCredit(layers, m.layers, 0, includeSelfLinks);
    net := MemoryNetwork(numNodes, names', layers, g, index, weights, total);
  }

  /** Layers with the same links credit the same weight. */
  lemma {:induction false} SameCredit(a: seq<Layer>, b: seq<Layer>, i: nat, includeSelfLinks: bool)
    requires |a| == |b| && i <= |a|
    requires forall k | 0 <= k < |a| :: a[k].links == b[k].links
    ensures CreditFrom(a, i, includeSelfLinks) == CreditFrom(b, i, includeSelfLinks)
    decreases |a| - i
  {
    if i < |a| {
      SameCredit(a, b, i + 1, includeSelfLinks);
    }
  }

  /** parseMultiplexNetwork followed by generateMemoryNetwork: a parse
      error is reported as it is, and a parsed network is expanded. */
  method ReadMultiplexNetwork(lines: seq<string>, offset: nat, names: seq<string>, includeSelfLinks: bool)
    returns (r: Result<MemoryNetwork, MultiplexError>)
    requires offset < UINT_RANGE
    ensures ParseMultiplexNetwork(lines, offset).Failure? <==> r.Failure?
    ensures r.Failure? ==> r.error == ParseMultiplexNetwork(lines, offset).error
    ensures r.Success? ==> |r.value.layers| >= 2
    ensures r.Success? ==> forall k | 0 <= k < |r.value.layers| :: r.value.layers[k].numNodes == r.value.numNodes
    ensures r.Success? ==>
              && ParseMultiplexNetwork(lines, offset).Success?
              && Generated(ParseMultiplexNetwork(lines, offset).value, names, includeSelfLinks, r.value)
  {
    var parsed := ParseMultiplexNetwork(lines, offset);
    if parsed.Failure? {
      return Failure(parsed.error);
    }
    var net := GenerateMemoryNetwork(parsed.value, names, includeSelfLinks);
    return Success(net);
  }
}

=== FILE: multiplex_parser.dfy ===
/** parseMultiplexNetwork: the line loop with its section mode, the lazily
    growing vector of layers, the additive inter-link table and the check
    that at least two layers were found.

    The loop is modelled in two stages: `ReadRecords` turns the lines into
    records (skipping blank and comment lines and switching the mode on
    section headers) and `Accumulate` applies the records in order. */
module MultiplexParser {
  import opened Wrappers
  import opened Weights
  import opened LinkParser
  import opened LayerGraph

  // ---------------------------------------------------------------------
  // Line loop

  datatype LineKind = Ignored | IntraHeader | InterHeader | Data

  /** How the loop treats one line: empty lines and lines starting with `#`
      are skipped, exactly `*Intra`/`*intra` and `*Inter`/`*inter` switch the
      mode, and everything else is a record. */
  function Classify(line: string): (k: LineKind)
    ensures k == Ignored <==> |line| == 0 || line[0] == '#'
    ensures k == IntraHeader <==> line == "*Intra" || line == "*intra"
    ensures k == InterHeader <==> line == "*Inter" || line == "*inter"
  {
    if |line| == 0 || line[0] == '#' then Ignored
    else if line == "*Intra" || line == "*intra" then IntraHeader
    else if line == "*Inter" || line == "*inter" then InterHeader
    else Data
  }

  /** A record line read in the given mode (`intra` true: intra mode). */
  function ParseLink(line: string, offset: nat, intra: bool): (r: Result<Record, MultiplexError>)
    requires offset < UINT_RANGE
    ensures r.Success? ==> ValidRecord(r.value) && r.value.IntraRecord? == intra
    ensures r.Failure? ==> r.error == FileFormatError(line)
  {
    if intra then ParseIntraLink(line, offset) else ParseInterLink(line, offset)
  }

  /** A parser for one record line in a given mode (`true`: intra mode). */
  type LineParser = (string, bool) -> Result<Record, MultiplexError>

  /** The source's record parsers, with the index offset fixed. */
  function LinkParserFor(offset: nat): (p: LineParser)
    requires offset < UINT_RANGE
    ensures forall line, intra :: p(line, intra) == ParseLink(line, offset, intra)
  {
    (line: string, intra: bool) => ParseLink(line, offset, intra)
  }

  /** The records of `lines[i..]`, read with `intra` as the current mode; the
      first line that cannot be parsed aborts the whole read. */
  function ReadFrom(lines: seq<string>, parse: LineParser, i: nat, intra: bool): (r: Result<seq<Record>, MultiplexError>)
    requires i <= |lines|
    ensures r.Success? ==> |r.value| <= |lines| - i
    decreases |lines| - i
  {
    if i == |lines| then Success([])
    else
      match Classify(lines[i])
      case Ignored => ReadFrom(lines, parse, i + 1, intra)
      case IntraHeader => ReadFrom(lines, parse, i + 1, true)
      case InterHeader => ReadFrom(lines, parse, i + 1, false)
      case Data =>
        var rec :- parse(lines[i], intra);
        var rest :- ReadFrom(lines, parse, i + 1, intra);
        Success([rec] + rest)
  }

  /** The records of a whole file; the mode starts as intra. */
  function ReadRecords(lines: seq<string>, offset: nat): Result<seq<Record>, MultiplexError>
    requires offset < UINT_RANGE
  {
    ReadFrom(lines, LinkParserFor(offset), 0, true)
  }

  /** The mode in force for line `i`: set by the last section header before
      it, intra when there is none. */
  function ModeBefore(lines: seq<string>, i: nat): bool
    requires i <= |lines|
  {
    if i == 0 then true
    else
      match Classify(lines[i - 1])
      case IntraHeader => true
      case InterHeader => false
      case _ => ModeBefore(lines, i - 1)
  }

  /** The positions of the record lines from `i` on, in order. */
  function DataIndices(lines: seq<string>, i: nat): (r: seq<nat>)
    requires i <= |lines|
    ensures forall k | 0 <= k < |r| :: i <= r[k] < |lines| && Classify(lines[r[k]]) == Data
    ensures forall k, k' | 0 <= k < k' < |r| :: r[k] < r[k']
    decreases |lines| - i
  {
    if i == |lines| then []
    else if Classify(lines[i]) == Data then [i] + DataIndices(lines, i + 1)
    else DataIndices(lines, i + 1)
  }

  /** What line `j` parses to in the mode of the last header before it. */
  function RecordAt(lines: seq<string>, parse: LineParser, j: nat): Result<Record, MultiplexError>
    requires j < |lines|
  {
    parse(lines[j], ModeBefore(lines, j))
  }

  /** Every record line from `i` on parses in the mode in force for it. */
  predicate AllParse(lines: seq<string>, parse: LineParser, i: nat)
    requires i <= |lines|
  {
    var d := DataIndices(lines, i);
    forall k | 0 <= k < |d| :: RecordAt(lines, parse, d[k]).Success?
  }

  lemma DataIndicesStep(lines: seq<string>, i: nat)
    requires i < |lines|
    ensures Classify(lines[i]) == Data ==> DataIndices(lines, i) == [i] + DataIndices(lines, i + 1)
    ensures Classify(lines[i]) != Data ==> DataIndices(lines, i) == DataIndices(lines, i + 1)
    ensures Classify(lines[i]) == Data || Classify(lines[i]) == Ignored ==> ModeBefore(lines, i + 1) == ModeBefore(lines, i)
    ensures Classify(lines[i]) == IntraHeader ==> ModeBefore(lines, i + 1)
    ensures Classify(lines[i]) == InterHeader ==> !ModeBefore(lines, i + 1)
  {
  }

  /** What one line does to the loop, stated over the line's text: an empty
      line or a `#` line is skipped and keeps the mode, `*Intra`/`*intra`
      switches to intra mode, `*Inter`/`*inter` to inter mode, and every
      other line is the next record line and keeps the mode. */
  lemma LineStep(lines: seq<string>, i: nat)
    requires i < |lines|
    ensures |lines[i]| == 0 || lines[i][0] == '#' ==>
              DataIndices(lines, i) == DataIndices(lines, i + 1) && ModeBefore(lines, i + 1) == ModeBefore(lines, i)
    ensures lines[i] == "*Intra" || lines[i] == "*intra" ==>
              DataIndices(lines, i) == DataIndices(lines, i + 1) && ModeBefore(lines, i + 1)
    ensures lines[i] == "*Inter" || lines[i] == "*inter" ==>
              DataIndices(lines, i) == DataIndices(lines, i + 1) && !ModeBefore(lines, i + 1)
    ensures |lines[i]| > 0 && lines[i][0] != '#' && lines[i] !in ["*Intra", "*intra", "*Inter", "*inter"] ==>
              DataIndices(lines, i) == [i] + DataIndices(lines, i + 1) && ModeBefore(lines, i + 1) == ModeBefore(lines, i)
  {
    DataIndicesStep(lines, i);
  }

  /** The line loop succeeds on `lines[i..]` exactly when every record line
      parses in the mode set by the last header before it. */
  lemma {:induction false} ReadSucceedsIffAllParse(lines: seq<string>, parse: LineParser, i: nat)
    requires i <= |lines|
    ensures ReadFrom(lines, parse, i, ModeBefore(lines, i)).Success? <==> AllParse(lines, parse, i)
    decreases |lines| - i
  {
    if i < |lines| {
      ReadSucceedsIffAllParse(lines, parse, i + 1);
      DataIndicesStep(lines, i);
      if Classify(lines[i]) == Data {
        AllParseStep(lines, parse, i);
      }
    }
  }

  lemma AllParseStep(lines: seq<string>, parse: LineParser, i: nat)
    requires i < |lines| && Classify(lines[i]) == Data
    ensures AllParse(lines, parse, i) <==> RecordAt(lines, parse, i).Success? && AllParse(lines, parse, i + 1)
  {
    DataIndicesStep(lines, i);
    var d, d' := DataIndices(lines, i), DataIndices(lines, i + 1);
    assert d[0] == i;
    assert forall k | 1 <= k < |d| :: d[k] == d'[k - 1];
    if RecordAt(lines, parse, i).Success? && AllParse(lines, parse, i + 1) {
      forall k | 0 <= k < |d|
        ensures RecordAt(lines, parse, d[k]).Success?
      {
        if k > 0 {
          assert d[k] == d'[k - 1];
        }
      }
    }
    if AllParse(lines, parse, i) {
      forall k | 0 <= k < |d'|
        ensures RecordAt(lines, parse, d'[k]).Success?
      {
        assert d'[k] == d[k + 1];
      }
    }
  }

  /** When the line loop succeeds, it yields one record per record line, in
      file order, each parsed in the mode in force for its line. */
  lemma {:induction false} ReadYieldsRecordsInOrder(lines: seq<string>, parse: LineParser, i: nat)
    requires i <= |lines|
    requires ReadFrom(lines, parse, i, ModeBefore(lines, i)).Success?
    ensures var rs := ReadFrom(lines, parse, i, ModeBefore(lines, i)).value;
            var d := DataIndices(lines, i);
            |rs| == |d| && forall k | 0 <= k < |d| :: RecordAt(lines, parse, d[k]) == Success(rs[k])
    decreases |lines| - i
  {
    if i < |lines| {
      DataIndicesStep(lines, i);
      ReadYieldsRecordsInOrder(lines, parse, i + 1);
    }
  }

  /** When the line loop fails, it fails with the error of the first record
      line that does not parse. */
  lemma {:induction false} ReadFailsAtFirstBadLine(lines: seq<string>, parse: LineParser, i: nat)
    requires i <= |lines|
    requires ReadFrom(lines, parse, i, ModeBefore(lines, i)).Failure?
    ensures var d := DataIndices(lines, i);
            exists k | 0 <= k < |d| :: FirstBad(lines, parse, d, k, ReadFrom(lines, parse, i, ModeBefore(lines, i)).error)
    decreases |lines| - i
  {
    assert i < |lines|;
    DataIndicesStep(lines, i);
    var d := DataIndices(lines, i);
    var r := ReadFrom(lines, parse, i, ModeBefore(lines, i));
    if Classify(lines[i]) != Data {
      ReadFailsAtFirstBadLine(lines, parse, i + 1);
    } else if RecordAt(lines, parse, i).Failure? {
      assert d[0] == i;
      assert r.error == RecordAt(lines, parse, d[0]).error;
      assert FirstBad(lines, parse, d, 0, r.error);
    } else {
      ReadFailsAtFirstBadLine(lines, parse, i + 1);
      var d' := DataIndices(lines, i + 1);
      var r' := ReadFrom(lines, parse, i + 1, ModeBefore(lines, i + 1));
      assert r.error == r'.error;
      var k :| 0 <= k < |d'| && FirstBad(lines, parse, d', k, r'.error);
      FirstBadShift(lines, parse, i, k, r.error);
    }
  }

  lemma FirstBadShift(lines: seq<string>, parse: LineParser, i: nat, k: nat, e: MultiplexError)
    requires i < |lines| && Classify(lines[i]) == Data && RecordAt(lines, parse, i).Success?
    requires k < |DataIndices(lines, i + 1)| && FirstBad(lines, parse, DataIndices(lines, i + 1), k, e)
    ensures k + 1 < |DataIndices(lines, i)| && FirstBad(lines, parse, DataIndices(lines, i), k + 1, e)
  {
    DataIndicesStep(lines, i);
    var d, d' := DataIndices(lines, i), DataIndices(lines, i + 1);
    assert d[0] == i;
    forall k' | 0 <= k' < k + 1
      ensures RecordAt(lines, parse, d[k']).Success?
    {
      if k' > 0 {
        assert d[k'] == d'[k' - 1];
      }
    }
    assert d[k + 1] == d'[k];
  }

  /** Position `k` of the record lines `d` is the first that fails, with `e`. */
  predicate FirstBad(lines: seq<string>, parse: LineParser, d: seq<nat>, k: nat, e: MultiplexError)
    requires k < |d| && forall j | 0 <= j < |d| :: d[j] < |lines|
  {
    && RecordAt(lines, parse, d[k]).Failure?
    && (forall k' | 0 <= k' < k :: RecordAt(lines, parse, d[k']).Success?)
    && e == RecordAt(lines, parse, d[k]).error
  }

  /** Reading a whole file: it succeeds exactly when every record line
      parses in the mode set by the last `*Intra`/`*Inter` header before it
      (intra when there is none); the records come out in file order; and a
      failure is the format error of the first record line that does not
      parse. */
  lemma ReadRecordsFollowsMode(lines: seq<string>, offset: nat)
    requires offset < UINT_RANGE
    ensures var d := DataIndices(lines, 0);
            ReadRecords(lines, offset).Success? <==>
              forall k | 0 <= k < |d| :: ParseLink(lines[d[k]], offset, ModeBefore(lines, d[k])).Success?
    ensures ReadRecords(lines, offset).Success? ==>
              var d := DataIndices(lines, 0);
              var rs := ReadRecords(lines, offset).value;
              |rs| == |d| &&
              forall k | 0 <= k < |d| :: ParseLink(lines[d[k]], offset, ModeBefore(lines, d[k])) == Success(rs[k])
    ensures ReadRecords(lines, offset).Failure? ==>
              var d := DataIndices(lines, 0);
              exists k | 0 <= k < |d| ::
                && ParseLink(lines[d[k]], offset, ModeBefore(lines, d[k])).Failure?
                && (forall k' | 0 <= k' < k :: ParseLink(lines[d[k']], offset, ModeBefore(lines, d[k'])).Success?)
                && ReadRecords(lines, offset).error == FileFormatError(lines[d[k]])
  {
    var parse := LinkParserFor(offset);
    ReadSucceedsIffAllParse(lines, parse, 0);
    if ReadRecords(lines, offset).Success? {
      ReadYieldsRecordsInOrder(lines, parse, 0);
    } else {
      ReadFailsAtFirstBadLine(lines, parse, 0);
    }
  }

  /** Every record read is within the unsigned range. */
  lemma ReadRecordsValid(lines: seq<string>, offset: nat)
    requires offset < UINT_RANGE
    requires ReadRecords(lines, offset).Success?
    ensures forall rec | rec in ReadRecords(lines, offset).value :: ValidRecord(rec)
  {
    ReadRecordsFollowsMode(lines, offset);
  }

  // ---------------------------------------------------------------------
  // Accumulation

  /** InterLinkKey(nodeIndex, layer1, layer2). */
  datatype InterLinkKey = InterLinkKey(node: nat, layer1: nat, layer2: nat)

  /** The parsed multiplex network: the layer vector and the inter-link table. */
  datatype Multiplex = Multiplex(layers: seq<Layer>, interLinks: map<InterLinkKey, real>)

  function Max(a: nat, b: nat): nat
  {
    if a < b then b else a
  }

  /** Appends empty layers until there are at least `count`. */
  function Grow(layers: seq<Layer>, count: nat): (r: seq<Layer>)
    ensures |r| == Max(|layers|, count)
    ensures r[..|layers|] == layers
    ensures forall j | |layers| <= j < |r| :: r[j] == EmptyLayer
    decreases count - |layers|
  {
    if |layers| < count then Grow(layers + [EmptyLayer], count) else layers
  }

  /** The links of layer `level`, none when the layer does not exist yet. */
  function LinksAt(layers: seq<Layer>, level: nat): LinkMap
  {
    if level < |layers| then layers[level].links else map[]
  }

  /** One loop iteration after parsing: an intra record grows the layer
      vector to `level + 1` layers (computed in 32 bits) and adds the link to
      its layer; an inter record adds its weight to the table entry for its
      key. */
  function AddRecord(m: Multiplex, rec: Record): (r: Result<Multiplex, MultiplexError>)
    requires ValidRecord(rec)
    ensures rec.InterRecord? ==> r.Success? && r.value.layers == m.layers
    ensures rec.InterRecord? ==> var k := InterLinkKey(rec.node, rec.layer1, rec.layer2);
              && r.value.interLinks.Keys == m.interLinks.Keys + {k}
              && Get(r.value.interLinks, k) == Get(m.interLinks, k) + rec.weight
              && forall k' | k' != k :: Get(r.value.interLinks, k') == Get(m.interLinks, k')
    ensures rec.IntraRecord? ==> (r.Failure? <==> rec.level + 1 == UINT_RANGE && rec.level >= |m.layers|)
    ensures rec.IntraRecord? && r.Failure? ==> r.error == LayerIndexOverflow(rec.level)
    ensures rec.IntraRecord? && r.Success? ==>
              && r.value.interLinks == m.interLinks
              && |r.value.layers| == Max(|m.layers|, rec.level + 1)
              && r.value.layers[rec.level] == AddLink(if rec.level < |m.layers| then m.layers[rec.level] else EmptyLayer, rec.n1, rec.n2, rec.weight)
              && (forall j | 0 <= j < |m.layers| && j != rec.level :: r.value.layers[j] == m.layers[j])
              && (forall j | |m.layers| <= j < |r.value.layers| && j != rec.level :: r.value.layers[j] == EmptyLayer)
  {
    match rec
    case IntraRecord(level, n1, n2, w) =>
      var grown := Grow(m.layers, (level + 1) % UINT_RANGE);
      if level >= |grown| then Failure(LayerIndexOverflow(level))
      else Success(m.(layers := grown[level := AddLink(grown[level], n1, n2, w)]))
    case InterRecord(node, l1, l2, w) =>
      Success(m.(interLinks := AddWeight(m.interLinks, InterLinkKey(node, l1, l2), w)))
  }

  /** The wrapped level. With offset 1, an intra line whose level field is
      0 parses to level 2^32 - 1. The source's loop grows the layer vector to
      `level + 1` layers in 32 bits, that is to 0 layers, so it adds none, and
      then indexes `m_networks[level]` past the end of a vector that has at
      most `level` layers. The model reports the overflow error instead. */
  lemma WrappedLevelIndexesPastEnd(line: string, m: Multiplex)
    requires ParseIntraLink(line, 1).Success?
    requires ExtractUnsigned(line).Some? && ExtractUnsigned(line).value.0 == 0
    requires |m.layers| < UINT_RANGE
    ensures var rec := ParseIntraLink(line, 1).value;
            && rec.level == UINT_RANGE - 1
            && (rec.level + 1) % UINT_RANGE == 0
            && Grow(m.layers, (rec.level + 1) % UINT_RANGE) == m.layers
            && rec.level >= |m.layers|
            && AddRecord(m, rec) == Failure(LayerIndexOverflow(rec.level))
  {
    var rec := ParseIntraLink(line, 1).value;
    assert rec.level == SubtractOffset(0, 1);
  }

  /** Applies the records in order; the first failure aborts. */
  function Accumulate(rs: seq<Record>, m: Multiplex): (r: Result<Multiplex, MultiplexError>)
    requires forall rec | rec in rs :: ValidRecord(rec)
    ensures r.Failure? ==> r.error.LayerIndexOverflow?
    ensures r.Success? ==> |r.value.layers| >= |m.layers| && r.value.interLinks.Keys >= m.interLinks.Keys
  {
    if rs == [] then Success(m)
    else
      var m' :- AddRecord(m, rs[0]);
      Accumulate(rs[1..], m')
  }

  /** The total weight of the inter records with key `k`. */
  function InterSum(rs: seq<Record>, k: InterLinkKey): real
  {
    if rs == [] then 0.0
    else
      var here := match rs[0]
        case InterRecord(node, l1, l2, w) => if InterLinkKey(node, l1, l2) == k then w else 0.0
        case IntraRecord(_, _, _, _) => 0.0;
      here + InterSum(rs[1..], k)
  }

  /** The keys of the inter records. */
  function InterKeys(rs: seq<Record>): set<InterLinkKey>
  {
    set k | k in rs && k.InterRecord? :: InterLinkKey(k.node, k.layer1, k.layer2)
  }

  /** The total weight of the intra records for link `e` of layer `level`. */
  function IntraSum(rs: seq<Record>, level: nat, e: (nat, nat)): real
  {
    if rs == [] then 0.0
    else
      var here := match rs[0]
        case IntraRecord(l, n1, n2, w) => if l == level && (n1, n2) == e then w else 0.0
        case InterRecord(_, _, _, _) => 0.0;
      here + IntraSum(rs[1..], level, e)
  }

  /** The pairs `(n1, n2)` of the intra records for layer `level`. */
  function IntraPairs(rs: seq<Record>, level: nat): set<(nat, nat)>
  {
    set r | r in rs && r.IntraRecord? && r.level == level :: (r.n1, r.n2)
  }

  /** One more than the largest level named by an intra record, 0 if none. */
  function LevelsNeeded(rs: seq<Record>): nat
  {
    if rs == [] then 0
    else
      var here := if rs[0].IntraRecord? then rs[0].level + 1 else 0;
      Max(here, LevelsNeeded(rs[1..]))
  }

  /** Some intra record names the level whose successor wraps to zero. */
  predicate NamesLastLevel(rs: seq<Record>)
  {
    exists k | 0 <= k < |rs| :: rs[k].IntraRecord? && rs[k].level + 1 == UINT_RANGE
  }

  lemma NamesLastLevelStep(rs: seq<Record>)
    requires rs != []
    ensures NamesLastLevel(rs) <==>
              (rs[0].IntraRecord? && rs[0].level + 1 == UINT_RANGE) || NamesLastLevel(rs[1..])
  {
    if NamesLastLevel(rs) {
      var k :| 0 <= k < |rs| && rs[k].IntraRecord? && rs[k].level + 1 == UINT_RANGE;
      if k > 0 {
        assert rs[1..][k - 1] == rs[k];
      }
    }
    if NamesLastLevel(rs[1..]) {
      var k :| 0 <= k < |rs[1..]| && rs[1..][k].IntraRecord? && rs[1..][k].level + 1 == UINT_RANGE;
      assert rs[k + 1] == rs[1..][k];
    }
  }

  /** Starting from fewer than 2^32 layers, accumulation fails exactly when
      some intra record names level 2^32 - 1, whose successor wraps to zero. */
  lemma {:induction false} AccumulateFailsIff(rs: seq<Record>, m: Multiplex)
    requires forall rec | rec in rs :: ValidRecord(rec)
    requires |m.layers| < UINT_RANGE
    ensures Accumulate(rs, m).Failure? <==> NamesLastLevel(rs)
  {
    if rs != [] {
      NamesLastLevelStep(rs);
      var step := AddRecord(m, rs[0]);
      if step.Success? {
        assert |step.value.layers| < UINT_RANGE;
        AccumulateFailsIff(rs[1..], step.value);
      }
    }
  }

  /** After accumulation the inter-link table holds, for every key, its
      previous weight plus the total weight of the inter records with that
      key, and has an entry for exactly the keys seen before or now. */
  lemma {:induction false} AccumulateInterSums(rs: seq<Record>, m: Multiplex)
    requires forall rec | rec in rs :: ValidRecord(rec)
    requires Accumulate(rs, m).Success?
    ensures var t := Accumulate(rs, m).value.interLinks;
            && t.Keys == m.interLinks.Keys + InterKeys(rs)
            && forall k :: Get(t, k) == Get(m.interLinks, k) + InterSum(rs, k)
  {
    if rs != [] {
      var rec := rs[0];
      var m1 := AddRecord(m, rec).value;
      AccumulateInterSums(rs[1..], m1);
      assert InterKeys(rs) == InterKeys([rec]) + InterKeys(rs[1..]) by {
        assert rs == [rec] + rs[1..];
      }
      var t := Accumulate(rs, m).value.interLinks;
      forall k
        ensures Get(t, k) == Get(m.interLinks, k) + InterSum(rs, k)
      {
        AddRecordInterAt(m, rec, k);
      }
      AddRecordInterAt(m, rec, InterLinkKey(0, 0, 0));
    }
  }

  /** One record's effect on the inter-link table, entry by entry. */
  lemma AddRecordInterAt(m: Multiplex, rec: Record, k: InterLinkKey)
    requires ValidRecord(rec) && AddRecord(m, rec).Success?
    ensures AddRecord(m, rec).value.interLinks.Keys == m.interLinks.Keys + InterKeys([rec])
    ensures Get(AddRecord(m, rec).value.interLinks, k) == Get(m.interLinks, k) + InterSum([rec], k)
  {
  }

  /** After accumulation there are as many layers as the largest level named
      by an intra record requires, and never fewer than before. */
  lemma {:induction false} AccumulateLayerCount(rs: seq<Record>, m: Multiplex)
    requires forall rec | rec in rs :: ValidRecord(rec)
    requires Accumulate(rs, m).Success?
    ensures |Accumulate(rs, m).value.layers| == Max(|m.layers|, LevelsNeeded(rs))
  {
    if rs != [] {
      AccumulateLayerCount(rs[1..], AddRecord(m, rs[0]).value);
    }
  }

  /** After accumulation every link weight of every layer is its previous
      weight plus the total weight of the intra records for that link, and
      each layer has an entry for exactly the pairs it had before and the
      pairs its intra records name, even where their weights cancel. */
  lemma {:induction false} AccumulateLinkSums(rs: seq<Record>, m: Multiplex)
    requires forall rec | rec in rs :: ValidRecord(rec)
    requires Accumulate(rs, m).Success?
    ensures var layers := Accumulate(rs, m).value.layers;
            forall level: nat, e | level < |layers| ::
              && (e in layers[level].links <==> e in LinksAt(m.layers, level) || e in IntraPairs(rs, level))
              && Get(layers[level].links, e) == Get(LinksAt(m.layers, level), e) + IntraSum(rs, level, e)
  {
    if rs != [] {
      var rec := rs[0];
      var m1 := AddRecord(m, rec).value;
      AccumulateLinkSums(rs[1..], m1);
      var layers := Accumulate(rs, m).value.layers;
      forall level: nat, e | level < |layers|
        ensures && (e in layers[level].links <==> e in LinksAt(m.layers, level) || e in IntraPairs(rs, level))
                && Get(layers[level].links, e) == Get(LinksAt(m.layers, level), e) + IntraSum(rs, level, e)
      {
        AddRecordLinks(m, rec, level, e);
        IntraPairsStep(rs, level, e);
      }
    }
  }

  lemma IntraPairsStep(rs: seq<Record>, level: nat, e: (nat, nat))
    requires rs != []
    ensures e in IntraPairs(rs, level) <==>
              (rs[0].IntraRecord? && rs[0].level == level && (rs[0].n1, rs[0].n2) == e) || e in IntraPairs(rs[1..], level)
  {
    if e in IntraPairs(rs, level) {
      var r :| r in rs && r.IntraRecord? && r.level == level && (r.n1, r.n2) == e;
      if r != rs[0] {
        assert r in rs[1..];
      }
    }
  }

  /** One record changes the weight of a layer link by the record's weight
      exactly when it is an intra record for that link, and gives that link
      an entry. */
  lemma AddRecordLinks(m: Multiplex, rec: Record, level: nat, e: (nat, nat))
    requires ValidRecord(rec) && AddRecord(m, rec).Success?
    ensures e in LinksAt(AddRecord(m, rec).value.layers, level) <==>
              e in LinksAt(m.layers, level) || (rec.IntraRecord? && rec.level == level && (rec.n1, rec.n2) == e)
    ensures Get(LinksAt(AddRecord(m, rec).value.layers, level), e) == Get(LinksAt(m.layers, level), e) +
              (if rec.IntraRecord? && rec.level == level && (rec.n1, rec.n2) == e then rec.weight else 0.0)
  {
  }

  /** The layers after the source's first pass of finalization. */
  function FinalizeAll(layers: seq<Layer>): (r: seq<Layer>)
    ensures |r| == |layers|
    ensures forall i | 0 <= i < |r| :: Finalized(r[i]) && r[i].links == layers[i].links && r[i].names == layers[i].names
  {
    seq(|layers|, i requires 0 <= i < |layers| => Finalize(layers[i], 0))
  }

  /** The part of parseMultiplexNetwork after the lines are read: accumulate
      the records, demand two layers and finalize every layer. */
  function BuildMultiplex(rs: seq<Record>): (r: Result<Multiplex, MultiplexError>)
    requires forall rec | rec in rs :: ValidRecord(rec)
    ensures r.Success? ==> |r.value.layers| >= 2
    ensures r.Success? ==> forall i | 0 <= i < |r.value.layers| :: Finalized(r.value.layers[i])
  {
    var m :- Accumulate(rs, Multiplex([], map[]));
    if |m.layers| < 2 then Failure(InputDomainError)
    else Success(m.(layers := FinalizeAll(m.layers)))
  }

  /** parseMultiplexNetwork, up to the point where the memory network is
      generated. */
  function ParseMultiplexNetwork(lines: seq<string>, offset: nat): (r: Result<Multiplex, MultiplexError>)
    requires offset < UINT_RANGE
    ensures r.Success? ==> |r.value.layers| >= 2
    ensures r.Success? ==> forall i | 0 <= i < |r.value.layers| :: Finalized(r.value.layers[i])
    ensures ReadRecords(lines, offset).Failure? ==> r == Failure(ReadRecords(lines, offset).error)
  {
    var rs :- ReadRecords(lines, offset);
    ReadRecordsValid(lines, offset);
    BuildMultiplex(rs)
  }

  /** The outcome of building from the records of a file: an overflow error
      when a level wraps; otherwise the domain error exactly when no intra
      record names a level above the first; so building succeeds exactly
      when no level wraps and some level above the first is named; and on
      success there are as
      many layers as the levels named need, the layer links and the
      inter-link table are the sums of the records' weights, and the links
      and the table have entries for exactly the pairs and keys named. */
  lemma BuildMultiplexOutcome(rs: seq<Record>)
    requires forall rec | rec in rs :: ValidRecord(rec)
    ensures NamesLastLevel(rs) ==> BuildMultiplex(rs).Failure? && BuildMultiplex(rs).error.LayerIndexOverflow?
    ensures !NamesLastLevel(rs) ==> (BuildMultiplex(rs) == Failure(InputDomainError) <==> LevelsNeeded(rs) < 2)
    ensures BuildMultiplex(rs).Success? <==> !NamesLastLevel(rs) && LevelsNeeded(rs) >= 2
    ensures BuildMultiplex(rs).Success? ==>
              var m := BuildMultiplex(rs).value;
              && |m.layers| == LevelsNeeded(rs)
              && m.interLinks.Keys == InterKeys(rs)
              && (forall k :: Get(m.interLinks, k) == InterSum(rs, k))
              && (forall level: nat | level < |m.layers| :: m.layers[level].links.Keys == IntraPairs(rs, level))
              && (forall level: nat, e | level < |m.layers| ::
                    Get(m.layers[level].links, e) == IntraSum(rs, level, e))
  {
    var m0 := Multiplex([], map[]);
    AccumulateFailsIff(rs, m0);
    if Accumulate(rs, m0).Success? {
      AccumulateLayerCount(rs, m0);
    }
    if BuildMultiplex(rs).Success? {
      BuiltSums(rs);
    }
  }

  /** A built network's layers and inter table are the aggregated records. */
  lemma BuiltSums(rs: seq<Record>)
    requires forall rec | rec in rs :: ValidRecord(rec)
    requires BuildMultiplex(rs).Success?
    ensures var m := BuildMultiplex(rs).value;
            && |m.layers| == LevelsNeeded(rs)
            && m.interLinks.Keys == InterKeys(rs)
            && (forall k :: Get(m.interLinks, k) == InterSum(rs, k))
            && (forall level: nat | level < |m.layers| :: m.layers[level].links.Keys == IntraPairs(rs, level))
            && (forall level: nat, e | level < |m.layers| ::
                  Get(m.layers[level].links, e) == IntraSum(rs, level, e))
  {
    var m0 := Multiplex([], map[]);
    var acc := Accumulate(rs, m0).value;
    AccumulateInterSums(rs, m0);
    AccumulateLayerCount(rs, m0);
    AccumulateLinkSums(rs, m0);
    var m := BuildMultiplex(rs).value;
    assert m.layers == FinalizeAll(acc.layers);
    forall level: nat | level < |m.layers|
      ensures m.layers[level].links == acc.layers[level].links
      ensures LinksAt(m0.layers, level) == map[]
    {
    }
  }
}

=== FILE: ordering.dfy ===
/** Ordered traversal of finite sets.

    The source keeps every accumulator in an ordered associative container and
    walks it in ascending key order. Here the accumulators are Dafny maps, and
    `Sorted` produces the ascending enumeration of a key set under a strict
    total order, so that a walk over the container becomes a walk over a
    sequence. */
module Ordering {

  /** `lt` is irreflexive, transitive and connected. */
  ghost predicate StrictTotalOrder<T(!new)>(lt: (T, T) -> bool)
  {
    && (forall x :: !lt(x, x))
    && (forall x, y, z :: lt(x, y) && lt(y, z) ==> lt(x, z))
    && (forall x, y :: x != y ==> lt(x, y) || lt(y, x))
  }

  predicate Ascending<T>(s: seq<T>, lt: (T, T) -> bool)
  {
    forall i, j :: 0 <= i < j < |s| ==> lt(s[i], s[j])
  }

  predicate Distinct<T(==)>(s: seq<T>)
  {
    forall i, j :: 0 <= i < j < |s| ==> s[i] != s[j]
  }

  /** `m` is the least element of `s`. */
  predicate IsLeast<T(==)>(m: T, s: set<T>, lt: (T, T) -> bool)
  {
    m in s && forall x | x in s && x != m :: lt(m, x)
  }

  lemma LeastExists<T(!new)>(s: set<T>, lt: (T, T) -> bool)
    requires s != {}
    requires StrictTotalOrder(lt)
    ensures exists m :: IsLeast(m, s, lt)
  {
    var x :| x in s;
    if s == {x} {
      assert IsLeast(x, s, lt);
    } else {
      LeastExists(s - {x}, lt);
      var m :| IsLeast(m, s - {x}, lt);
      if lt(x, m) {
        forall y | y in s && y != x
          ensures lt(x, y)
        {
          if y != m {
            assert lt(m, y);
          }
        }
        assert IsLeast(x, s, lt);
      } else {
        assert IsLeast(m, s, lt);
      }
    }
  }

  lemma LeastUnique<T(!new)>(s: set<T>, lt: (T, T) -> bool)
    requires StrictTotalOrder(lt)
    ensures forall a, b :: IsLeast(a, s, lt) && IsLeast(b, s, lt) ==> a == b
  {
  }

  /** The elements of `s` in ascending order. */
  function Sorted<T(!new)>(s: set<T>, lt: (T, T) -> bool): (r: seq<T>)
    requires StrictTotalOrder(lt)
    ensures |r| == |s|
    ensures forall x :: x in r <==> x in s
    ensures Ascending(r, lt)
    decreases |s|
  {
    if s == {} then []
    else
      LeastExists(s, lt);
      LeastUnique(s, lt);
      var m :| IsLeast(m, s, lt);
      [m] + Sorted(s - {m}, lt)
  }

  lemma AscendingIsDistinct<T(!new)>(s: seq<T>, lt: (T, T) -> bool)
    requires StrictTotalOrder(lt)
    requires Ascending(s, lt)
    ensures Distinct(s)
  {
  }

  /** Lexicographic order on pairs of naturals. */
  predicate LtPair(a: (nat, nat), b: (nat, nat))
  {
    a.0 < b.0 || (a.0 == b.0 && a.1 < b.1)
  }

  lemma LtPairIsStrictTotal()
    ensures StrictTotalOrder(LtPair)
  {
  }
}

=== FILE: reconciliation.dfy ===
/** The first step of generateMemoryNetwork: every layer is brought to the
    same node count, the largest one found, and the display names of the
    first layer that has any are taken over when none were given. */
module Reconciliation {
  import opened LayerGraph

  /** Layer `j` is the first layer with display names. */
  predicate FirstNamed(layers: seq<Layer>, j: nat)
  {
    j < |layers| && layers[j].names != [] && forall k | 0 <= k < j :: layers[k].names == []
  }

  /** The layers' node counts and links are those of `layers`, and their
      names are `layers`' except that layer `j`, if named, has given its
      names away. */
  predicate NamesTakenFrom(r: seq<Layer>, layers: seq<Layer>, j: int)
  {
    && |r| == |layers|
    && forall k | 0 <= k < |r| ::
         r[k] == layers[k].(names := if k == j then [] else layers[k].names)
  }

  /** The outcome of the name hand-over: names already held are kept and
      no layer gives its names away; otherwise the names of the first named
      layer, if any, are taken and that layer is left without names. */
  predicate NamesHandedOver(layers: seq<Layer>, names: seq<string>, r: seq<Layer>, names': seq<string>)
  {
    && |r| == |layers|
    && (names != [] ==> names' == names && forall k | 0 <= k < |r| :: r[k].names == layers[k].names)
    && (names == [] ==>
          forall j: nat | j < |layers| && FirstNamed(layers, j) ::
            names' == layers[j].names && forall k | 0 <= k < |r| :: r[k].names == (if k == j then [] else layers[k].names))
    && (names == [] && (forall k | 0 <= k < |layers| :: layers[k].names == []) ==>
          names' == [] && forall k | 0 <= k < |r| :: r[k].names == [])
  }

  /** The outcome of the hand-over only depends on the layers' names. */
  lemma NamesOfSameNames(layers: seq<Layer>, equal: seq<Layer>, names: seq<string>, r: seq<Layer>, names': seq<string>)
    requires |equal| == |layers| && forall k | 0 <= k < |layers| :: equal[k].names == layers[k].names
    requires NamesHandedOver(equal, names, r, names')
    ensures NamesHandedOver(layers, names, r, names')
  {
    forall j: nat
      ensures FirstNamed(layers, j) <==> FirstNamed(equal, j)
    {
    }
  }

  /** The node-count scan of generateMemoryNetwork, with the name hand-over.
      `numNodes` is the largest node count of any layer; `different` says
      whether some layer's count differs from it; only those layers are
      finalized again, now with `numNodes` demanded, so that every layer
      ends with exactly `numNodes` nodes. When `names` is empty the names
      of the first named layer move out of that layer into the result.
      The source's scan handles counts and names in the same loop; they do
      not interact, and finalizing keeps names, so here the counts are
      settled first and the names handed over afterwards. */
  method Reconcile(layers: seq<Layer>, names: seq<string>)
    returns (r: seq<Layer>, numNodes: nat, names': seq<string>, different: bool)
    requires |layers| > 0
    requires forall k | 0 <= k < |layers| :: Finalized(layers[k])
    ensures |r| == |layers|
    ensures forall k | 0 <= k < |layers| :: layers[k].numNodes <= numNodes
    ensures exists k | 0 <= k < |layers| :: layers[k].numNodes == numNodes
    ensures different <==> exists k | 0 <= k < |layers| :: layers[k].numNodes != numNodes
    ensures forall k | 0 <= k < |r| :: r[k].numNodes == numNodes && r[k].links == layers[k].links
    ensures forall k | 0 <= k < |r| && layers[k].numNodes == numNodes :: r[k] == layers[k].(names := r[k].names)
    ensures NamesHandedOver(layers, names, r, names')
  {
    var equal;
    equal, numNodes, different := EqualizeCounts(layers);
    r, names' := TakeNames(equal, names);
    NamesOfSameNames(layers, equal, names, r, names');
  }

  /** The count half of the scan: the largest count, whether any layer
      differs from it, and the layers with the differing ones finalized
      again with that count demanded. */
  method EqualizeCounts(layers: seq<Layer>) returns (r: seq<Layer>, numNodes: nat, different: bool)
    requires |layers| > 0
    requires forall k | 0 <= k < |layers| :: Finalized(layers[k])
    ensures |r| == |layers|
    ensures forall k | 0 <= k < |layers| :: layers[k].numNodes <= numNodes
    ensures exists k | 0 <= k < |layers| :: layers[k].numNodes == numNodes
    ensures different <==> exists k | 0 <= k < |layers| :: layers[k].numNodes != numNodes
    ensures forall k | 0 <= k < |r| :: r[k].numNodes == numNodes && r[k].links == layers[k].links && r[k].names == layers[k].names
    ensures forall k | 0 <= k < |r| && layers[k].numNodes == numNodes :: r[k] == layers[k]
  {
    numNodes, different := ScanCounts(layers);
    if different {
      r := Refinalize(layers, numNodes);
    } else {
      r := layers;
    }
  }

  /** The largest node count, and whether any count differs from it. */
  method ScanCounts(layers: seq<Layer>) returns (numNodes: nat, different: bool)
    requires |layers| > 0
    ensures forall k | 0 <= k < |layers| :: layers[k].numNodes <= numNodes
    ensures exists k | 0 <= k < |layers| :: layers[k].numNodes == numNodes
    ensures different <==> exists k | 0 <= k < |layers| :: layers[k].numNodes != numNodes
  {
    var first := layers[0].numNodes;
    numNodes := first;
    different := false;
    var i := 0;
    while i < |layers|
      invariant 0 <= i <= |layers|
      invariant first <= numNodes
      invariant forall k | 0 <= k < i :: layers[k].numNodes <= numNodes
      invariant numNodes == first || exists k | 0 <= k < i :: layers[k].numNodes == numNodes
      invariant different <==> exists k | 0 <= k < i :: layers[k].numNodes != first
    {
      var count := layers[i].numNodes;
      if count != numNodes {
        different := true;
      }
      if numNodes < count {
        numNodes := count;
      }
      i := i + 1;
    }
    DifferentFromMax(layers, first, numNodes, different);
  }

  /** When `names` is empty, the names of the first named layer are swapped
      into it, leaving that layer without names. */
  method TakeNames(layers: seq<Layer>, names: seq<string>) returns (r: seq<Layer>, names': seq<string>)
    ensures |r| == |layers| && forall k | 0 <= k < |r| :: r[k] == layers[k].(names := r[k].names)
    ensures NamesHandedOver(layers, names, r, names')
  {
    names' := names;
    r := layers;
    ghost var taken: int := -1;
    var i := 0;
    while i < |layers|
      invariant 0 <= i <= |layers|
      invariant NamesTakenFrom(r, layers, taken)
      invariant names != [] ==> names' == names && taken == -1
      invariant names == [] && taken == -1 ==> names' == [] && forall k | 0 <= k < i :: layers[k].names == []
      invariant names == [] && taken != -1 ==> 0 <= taken < i && FirstNamed(layers, taken) && names' == layers[taken].names
    {
      if names' == [] && r[i].names != [] {
        names' := r[i].names;
        r := r[i := r[i].(names := [])];
        taken := i;
      }
      i := i + 1;
    }
    if names == [] {
      forall j: nat | FirstNamed(layers, j)
        ensures j == taken
      {
        assert layers[j].names != [];
        if taken != -1 {
          assert layers[taken].names != [];
        }
      }
    }
  }

  /** Every layer whose node count is not `numNodes` is finalized again with
      `numNodes` demanded; the others are left alone. */
  method Refinalize(layers: seq<Layer>, numNodes: nat) returns (r: seq<Layer>)
    requires forall j {:trigger Finalized(layers[j])} | 0 <= j < |layers| :: Finalized(layers[j]) && layers[j].numNodes <= numNodes
    ensures |r| == |layers|
    ensures forall k | 0 <= k < |r| :: r[k].numNodes == numNodes && r[k].links == layers[k].links && r[k].names == layers[k].names
    ensures forall k | 0 <= k < |r| && layers[k].numNodes == numNodes :: r[k] == layers[k]
  {
    r := [];
    var k := 0;
    while k < |layers|
      invariant 0 <= k <= |layers| && |r| == k
      invariant forall q | 0 <= q < k :: Refitted(layers[q], r[q], numNodes)
    {
      var layer := Refit(layers, k, numNodes);
      r, k := r + [layer], k + 1;
    }
    RefittedAll(layers, r, numNodes);
  }

  lemma RefittedAll(layers: seq<Layer>, r: seq<Layer>, numNodes: nat)
    requires |r| == |layers| && forall q | 0 <= q < |r| :: Refitted(layers[q], r[q], numNodes)
    ensures forall k | 0 <= k < |r| :: r[k].numNodes == numNodes && r[k].links == layers[k].links && r[k].names == layers[k].names
    ensures forall k | 0 <= k < |r| && layers[k].numNodes == numNodes :: r[k] == layers[k]
  {
  }

  /** `after` is `before` with the node count `numNodes`. */
  predicate Refitted(before: Layer, after: Layer, numNodes: nat)
  {
    after.numNodes == numNodes && after.links == before.links && after.names == before.names
  }

  /** Layer `k` brought to the common node count: finalized again when its
      own count differs, left alone otherwise. */
  method Refit(layers: seq<Layer>, k: nat, numNodes: nat) returns (r: Layer)
    requires forall j {:trigger Finalized(layers[j])} | 0 <= j < |layers| :: Finalized(layers[j]) && layers[j].numNodes <= numNodes
    requires k < |layers|
    ensures Refitted(layers[k], r, numNodes)
  {
    assert Finalized(layers[k]);
    r := layers[k];
    if r.numNodes != numNodes {
      r := Finalize(r, numNodes);
    }
  }

  /** A count differs from the first one exactly when some count differs
      from the largest. */
  lemma DifferentFromMax(layers: seq<Layer>, first: nat, m: nat, different: bool)
    requires |layers| > 0 && first == layers[0].numNodes
    requires forall k | 0 <= k < |layers| :: layers[k].numNodes <= m
    requires m == first || exists k | 0 <= k < |layers| :: layers[k].numNodes == m
    requires different <==> exists k | 0 <= k < |layers| :: layers[k].numNodes != first
    ensures different <==> exists k | 0 <= k < |layers| :: layers[k].numNodes != m
  {
    if m != first {
      assert layers[0].numNodes != m;
    }
  }
}

=== FILE: redistribution.dfy ===
/** The second phase of generateMemoryNetwork: every inter-link entry
    `(v, l1, l2) -> w` with `l1 != l2` is spread over the out-links of state
    node `(l2, v)` that stay inside layer `l2`, in proportion to their
    weights, as links from `(l1, v)`. */
module Redistribution {
  import opened Wrappers
  import opened Ordering
  import opened Weights
  import opened MemoryGraph
  import opened MultiplexParser

  /** The target state nodes of a link table. */
  function Targets(links: map<StateLink, real>): set<StateNode>
  {
    set l | l in links :: l.dst
  }

  /** The links from `src` into layer `layer`, by target. */
  function LinksInto(links: map<StateLink, real>, src: StateNode, layer: nat): (r: map<StateNode, real>)
    ensures forall t :: t in r <==> t.layer == layer && StateLink(src, t) in links
    ensures forall t | t in r :: r[t] == links[StateLink(src, t)]
  {
    map t | t in Targets(links) && t.layer == layer && StateLink(src, t) in links :: links[StateLink(src, t)]
  }

  /** The out-links of `src` that stay inside its own layer, by target. */
  function OutLinksWithin(links: map<StateLink, real>, src: StateNode): map<StateNode, real>
  {
    LinksInto(links, src, src.layer)
  }

  /** Every weight of `out` multiplied by `c`. */
  function Scale(out: map<StateNode, real>, c: real): (r: map<StateNode, real>)
    ensures r.Keys == out.Keys
    ensures forall t | t in r :: r[t] == c * out[t]
  {
    map t | t in out :: c * out[t]
  }

  /** Weight `w` split over the targets of `out` against the total `s`:
      target `t` gets `w * out[t] / s`. A zero total splits nothing. */
  function Split(out: map<StateNode, real>, w: real, s: real): (r: map<StateNode, real>)
    ensures s == 0.0 ==> r == map[]
    ensures s != 0.0 ==> r.Keys == out.Keys
  {
    if s == 0.0 then map[] else Scale(out, w / s)
  }

  /** Each target's part of a split, times the total, is the split weight
      times the target's weight. */
  lemma SplitProportional(out: map<StateNode, real>, w: real, s: real, t: StateNode)
    requires s != 0.0 && t in out
    ensures Split(out, w, s)[t] * s == w * out[t]
  {
    var c := w / s;
    assert Split(out, w, s)[t] == c * out[t];
    Proportion(Split(out, w, s)[t], w, s, out[t]);
  }

  lemma Proportion(x: real, w: real, s: real, o: real)
    requires s != 0.0 && x == (w / s) * o
    ensures x * s == w * o
  {
  }

  /** Weight `w` split over the targets of `out` in proportion to their
      weights, against the total `S` of `out`. */
  function Shares(out: map<StateNode, real>, w: real): map<StateNode, real>
  {
    Split(out, w, StateTotal(out))
  }

  /** A zero total splits nothing; otherwise every out-link target gets a share. */
  lemma SharesKeys(out: map<StateNode, real>, w: real)
    ensures StateTotal(out) == 0.0 ==> Shares(out, w) == map[]
    ensures StateTotal(out) != 0.0 ==> Shares(out, w).Keys == out.Keys
  {
  }

  lemma DivCancel(w: real, s: real)
    requires s != 0.0
    ensures (w / s) * s == w
  {
  }

  /** Split against their own total, the parts add up to the weight that
      was split, whatever order they are summed in. */
  lemma SplitSum(ks: seq<StateNode>, out: map<StateNode, real>, w: real, s: real)
    requires s == SumOver(ks, out) && s != 0.0
    ensures SumOver(ks, Split(out, w, s)) == w
  {
    ScaledSum(ks, out, w / s);
    DivCancel(w, s);
  }

  /** Scaling a table scales its sum over any key sequence. */
  lemma ScaledSum(ks: seq<StateNode>, out: map<StateNode, real>, c: real)
    ensures SumOver(ks, Scale(out, c)) == c * SumOver(ks, out)
  {
    forall k | k in ks
      ensures Get(Scale(out, c), k) == c * Get(out, k)
    {
      ScaleGet(out, c, k);
    }
    SumOverProportional(ks, out, Scale(out, c), c);
  }

  /** Scaling scales every entry, absent ones reading as 0. */
  lemma ScaleGet(out: map<StateNode, real>, c: real, k: StateNode)
    ensures Get(Scale(out, c), k) == c * Get(out, k)
  {
  }

  /** When the weights do not sum to zero, the shares add up to the weight
      that was split. */
  lemma SharesSum(out: map<StateNode, real>, w: real)
    requires StateTotal(out) != 0.0
    ensures StateTotal(Shares(out, w)) == w
  {
    LtStateIsStrictTotal();
    SplitSum(Sorted(out.Keys, LtState), out, w, StateTotal(out));
    assert Shares(out, w).Keys == out.Keys;
  }

  /** The split as the source writes it: once the node has an out-link
      entry, every in-layer target gets `w * out[t] / s`, with no check of
      `s`. A division by a zero total gives a non-finite weight, written
      `None` here. */
  function SplitAsWritten(out: map<StateNode, real>, w: real, s: real): (r: map<StateNode, Option<real>>)
    ensures r.Keys == out.Keys
    ensures forall t | t in r :: r[t].None? <==> s == 0.0
  {
    map t | t in out :: if s == 0.0 then None else Some(w * out[t] / s)
  }

  /** Where the total is nonzero the source's split and `Split` agree. */
  lemma SplitAsWrittenAgrees(out: map<StateNode, real>, w: real, s: real, t: StateNode)
    requires s != 0.0 && t in out
    ensures SplitAsWritten(out, w, s)[t] == Some(Split(out, w, s)[t])
  {
    var o := out[t];
    var r := SplitAsWritten(out, w, s);
    assert t in r;
    assert r[t].Some?;
    assert r[t].value == w * o / s;
    assert Split(out, w, s)[t] == (w / s) * o;
    DivReorder(w, o, s);
  }

  lemma DivReorder(w: real, o: real, s: real)
    requires s != 0.0
    ensures w * o / s == (w / s) * o
  {
  }

  /** A node whose only out-link in the second layer has weight 0: the
      source's split gives the target a link with a non-finite weight,
      while `Shares` adds no link at all. */
  lemma ZeroWeightOutLink()
    ensures var t := StateNode(1, 2);
            var out := map[t := 0.0];
            && StateTotal(out) == 0.0
            && t in SplitAsWritten(out, 5.0, StateTotal(out))
            && SplitAsWritten(out, 5.0, StateTotal(out))[t].None?
            && Shares(out, 5.0) == map[]
  {
    var t := StateNode(1, 2);
    var empty: map<StateNode, real> := map[];
    LtStateIsStrictTotal();
    assert Sorted(empty.Keys, LtState) == [];
    SumMapAddNew(empty, t, 0.0, LtState);
    assert AddWeight(empty, t, 0.0) == map[t := 0.0];
  }

  /** The shares of inter entry `key` against the links `links`. */
  function SharesFor(links: map<StateLink, real>, key: InterLinkKey, w: real): map<StateNode, real>
  {
    Shares(OutLinksWithin(links, StateNode(key.layer2, key.node)), w)
  }

  /** The state node an inter entry's links leave from. */
  function SourceOf(key: InterLinkKey): StateNode
  {
    StateNode(key.layer1, key.node)
  }

  /** The only inter entry that can produce link `l`. */
  function KeyFor(l: StateLink): InterLinkKey
  {
    InterLinkKey(l.src.phys, l.src.layer, l.dst.layer)
  }

  /** Links from `src` to each target `ts` with its share, each followed by
      registering `src` with weight 0. */
  function Spread(g: Graph, src: StateNode, ts: seq<StateNode>, shares: map<StateNode, real>): Graph
    decreases |ts|
  {
    if ts == [] then g
    else Spread(AddNode(InsertLink(g, src, ts[0], Get(shares, ts[0])), src, 0.0), src, ts[1..], shares)
  }

  lemma {:induction false} SpreadLinks(g: Graph, src: StateNode, ts: seq<StateNode>, shares: map<StateNode, real>)
    requires Distinct(ts)
    ensures var r := Spread(g, src, ts, shares);
            && (forall l :: l in r.links <==> (l in g.links || (l.src == src && l.dst in ts)))
            && (forall l :: Get(r.links, l) == Get(g.links, l) + (if l.src == src && l.dst in ts then Get(shares, l.dst) else 0.0))
    decreases |ts|
  {
    if ts != [] {
      var g1 := AddNode(InsertLink(g, src, ts[0], Get(shares, ts[0])), src, 0.0);
      SpreadLinks(g1, src, ts[1..], shares);
      assert ts[0] !in ts[1..];
      assert forall t :: t in ts <==> t == ts[0] || t in ts[1..];
    }
  }

  lemma {:induction false} SpreadNodes(g: Graph, src: StateNode, ts: seq<StateNode>, shares: map<StateNode, real>)
    ensures var r := Spread(g, src, ts, shares);
            && r.nodes.Keys == g.nodes.Keys + (if ts == [] then {} else {src})
            && forall n :: Get(r.nodes, n) == Get(g.nodes, n)
    decreases |ts|
  {
    if ts != [] {
      var g1 := AddNode(InsertLink(g, src, ts[0], Get(shares, ts[0])), src, 0.0);
      SpreadNodes(g1, src, ts[1..], shares);
    }
  }

  /** One inter entry: nothing when both layers are the same; otherwise the
      shares of the entry's weight, split over the in-layer out-links of
      `(l2, v)`, become links from `(l1, v)`, walked in target order.
      Redistribution moves link weight around but adds no node weight. */
  function Redistribute(g: Graph, key: InterLinkKey, w: real): (r: Graph)
    ensures TotalNodeWeight(r) == TotalNodeWeight(g)
  {
    if key.layer1 == key.layer2 then g
    else
      var shares := SharesFor(g.links, key, w);
      LtStateIsStrictTotal();
      SpreadTotal(g, SourceOf(key), Sorted(shares.Keys, LtState), shares);
      Spread(g, SourceOf(key), Sorted(shares.Keys, LtState), shares)
  }

  /** A link gains weight from an inter entry only when the entry is the
      one for that link and the link crosses layers; it then gains the
      share of its target. */
  lemma RedistributeLinks(g: Graph, key: InterLinkKey, w: real)
    ensures var r := Redistribute(g, key, w);
            var shares := SharesFor(g.links, key, w);
            && (forall l :: l in r.links <==> (l in g.links ||
                  (key == KeyFor(l) && l.src.layer != l.dst.layer && l.dst in shares)))
            && (forall l :: Get(r.links, l) == Get(g.links, l) +
                  (if key == KeyFor(l) && l.src.layer != l.dst.layer then Get(shares, l.dst) else 0.0))
  {
    if key.layer1 != key.layer2 {
      var shares := SharesFor(g.links, key, w);
      LtStateIsStrictTotal();
      var ts := Sorted(shares.Keys, LtState);
      AscendingIsDistinct(ts, LtState);
      var r := Spread(g, SourceOf(key), ts, shares);
      SpreadLinks(g, SourceOf(key), ts, shares);
      forall l: StateLink
        ensures l in r.links <==> (l in g.links ||
                  (key == KeyFor(l) && l.src.layer != l.dst.layer && l.dst in shares))
        ensures Get(r.links, l) == Get(g.links, l) +
                  (if key == KeyFor(l) && l.src.layer != l.dst.layer then Get(shares, l.dst) else 0.0)
      {
        SharesInLayer(g.links, key, w, l.dst);
      }
    }
  }

  /** An entry's shares go to state nodes in its second layer. */
  lemma SharesInLayer(links: map<StateLink, real>, key: InterLinkKey, w: real, t: StateNode)
    ensures t in SharesFor(links, key, w) ==> t.layer == key.layer2
  {
    SharesKeys(OutLinksWithin(links, StateNode(key.layer2, key.node)), w);
  }

  /** An inter entry leaves every node weight alone, and registers its
      source node exactly when it splits its weight over some target. */
  lemma RedistributeNodes(g: Graph, key: InterLinkKey, w: real)
    ensures var r := Redistribute(g, key, w);
            && (forall n :: n in r.nodes <==> (n in g.nodes || Registers(g.links, key, w, n)))
            && (forall n :: Get(r.nodes, n) == Get(g.nodes, n))
  {
    if key.layer1 != key.layer2 {
      var shares := SharesFor(g.links, key, w);
      LtStateIsStrictTotal();
      var ts := Sorted(shares.Keys, LtState);
      SpreadNodes(g, SourceOf(key), ts, shares);
      assert ts == [] <==> shares == map[];
    }
  }

  /** Inter entry `key` registers state node `n`. */
  predicate Registers(links: map<StateLink, real>, key: InterLinkKey, w: real, n: StateNode)
  {
    key.layer1 != key.layer2 && n == SourceOf(key) && SharesFor(links, key, w) != map[]
  }

  /** The links an inter entry adds all cross layers, so the in-layer
      out-links of every state node, which are all any later entry reads,
      stay as they were. */
  lemma RedistributeKeepsWithin(g: Graph, key: InterLinkKey, w: real, src: StateNode)
    ensures OutLinksWithin(Redistribute(g, key, w).links, src) == OutLinksWithin(g.links, src)
  {
    var r := Redistribute(g, key, w);
    RedistributeLinks(g, key, w);
    KeepsWithin(g.links, r.links, src);
  }

  /** Two link tables that agree on the links inside `src`'s layer have the
      same in-layer out-links at `src`. */
  lemma KeepsWithin(a: map<StateLink, real>, b: map<StateLink, real>, src: StateNode)
    requires forall l: StateLink | l.src.layer == l.dst.layer :: (l in a <==> l in b) && Get(a, l) == Get(b, l)
    ensures OutLinksWithin(a, src) == OutLinksWithin(b, src)
  {
    var x, y := OutLinksWithin(a, src), OutLinksWithin(b, src);
    forall t
      ensures t in x <==> t in y
    {
      var l := StateLink(src, t);
      assert t in x <==> t.layer == src.layer && l in a;
    }
    forall t | t in x
      ensures Get(x, t) == Get(y, t)
    {
      var l := StateLink(src, t);
      assert Get(x, t) == Get(a, l);
    }
    TablesEqual(x, y);
  }

  /** The inter entries `ks`, with weights from `table`, in the order given;
      the phase leaves the total node weight as the first phase left it. */
  function InterPhase(g: Graph, ks: seq<InterLinkKey>, table: map<InterLinkKey, real>): (r: Graph)
    ensures TotalNodeWeight(r) == TotalNodeWeight(g)
    decreases |ks|
  {
    if ks == [] then g
    else InterPhase(Redistribute(g, ks[0], Get(table, ks[0])), ks[1..], table)
  }

  /** The whole phase leaves the in-layer out-links of every state node as
      they were before it: each entry reads only links the first phase made. */
  lemma {:induction false} InterPhaseKeepsWithin(g: Graph, ks: seq<InterLinkKey>, table: map<InterLinkKey, real>, src: StateNode)
    ensures OutLinksWithin(InterPhase(g, ks, table).links, src) == OutLinksWithin(g.links, src)
    decreases |ks|
  {
    if ks != [] {
      var g1 := Redistribute(g, ks[0], Get(table, ks[0]));
      RedistributeKeepsWithin(g, ks[0], Get(table, ks[0]), src);
      InterPhaseKeepsWithin(g1, ks[1..], table, src);
    }
  }

  /** Link `l` after one inter entry. */
  lemma RedistributeLinkAt(g: Graph, key: InterLinkKey, w: real, l: StateLink)
    ensures var r := Redistribute(g, key, w);
            var shares := SharesFor(g.links, key, w);
            && (l in r.links <==> (l in g.links ||
                  (key == KeyFor(l) && l.src.layer != l.dst.layer && l.dst in shares)))
            && Get(r.links, l) == Get(g.links, l) +
                  (if key == KeyFor(l) && l.src.layer != l.dst.layer then Get(shares, l.dst) else 0.0)
  {
    RedistributeLinks(g, key, w);
  }

  /** An inter entry does not change the shares any entry computes. */
  lemma SharesForKept(g: Graph, key: InterLinkKey, w: real, key': InterLinkKey, w': real)
    ensures SharesFor(Redistribute(g, key, w).links, key', w') == SharesFor(g.links, key', w')
  {
    RedistributeKeepsWithin(g, key, w, StateNode(key'.layer2, key'.node));
  }

  /** Link `l` crosses layers and its entry, among `ks`, gives its target a share. */
  predicate CrossLink(links: map<StateLink, real>, ks: seq<InterLinkKey>, table: map<InterLinkKey, real>, l: StateLink)
  {
    KeyFor(l) in ks && l.src.layer != l.dst.layer && l.dst in SharesFor(links, KeyFor(l), Get(table, KeyFor(l)))
  }

  /** The share link `l` receives from its entry among `ks`, 0 if none. */
  function CrossWeight(links: map<StateLink, real>, ks: seq<InterLinkKey>, table: map<InterLinkKey, real>, l: StateLink): real
  {
    if KeyFor(l) in ks && l.src.layer != l.dst.layer
    then Get(SharesFor(links, KeyFor(l), Get(table, KeyFor(l))), l.dst)
    else 0.0
  }

  /** Link `l` after distinct inter entries `ks`: it gains the share of its
      target from the one entry it belongs to, with the shares computed from
      the links before the phase. */
  lemma {:induction false} InterPhaseLinkAt(g: Graph, ks: seq<InterLinkKey>, table: map<InterLinkKey, real>, l: StateLink)
    requires Distinct(ks)
    ensures var r := InterPhase(g, ks, table);
            && (l in r.links <==> (l in g.links || CrossLink(g.links, ks, table, l)))
            && Get(r.links, l) == Get(g.links, l) + CrossWeight(g.links, ks, table, l)
    decreases |ks|
  {
    if ks != [] {
      var k := ks[0];
      var g1 := Redistribute(g, k, Get(table, k));
      RedistributeLinkAt(g, k, Get(table, k), l);
      assert Distinct(ks[1..]);
      InterPhaseLinkAt(g1, ks[1..], table, l);
      SharesForKept(g, k, Get(table, k), KeyFor(l), Get(table, KeyFor(l)));
      assert k !in ks[1..];
      assert KeyFor(l) in ks <==> KeyFor(l) == k || KeyFor(l) in ks[1..];
    }
  }

  /** What distinct inter entries add to the link table. */
  lemma InterPhaseLinks(g: Graph, ks: seq<InterLinkKey>, table: map<InterLinkKey, real>)
    requires Distinct(ks)
    ensures var r := InterPhase(g, ks, table);
            && (forall l :: l in r.links <==> (l in g.links || CrossLink(g.links, ks, table, l)))
            && (forall l :: Get(r.links, l) == Get(g.links, l) + CrossWeight(g.links, ks, table, l))
  {
    forall l {
      InterPhaseLinkAt(g, ks, table, l);
    }
  }

  /** Some entry among `ks` registers `n`. */
  predicate Registered(links: map<StateLink, real>, ks: seq<InterLinkKey>, table: map<InterLinkKey, real>, n: StateNode)
  {
    exists k | k in ks :: Registers(links, k, Get(table, k), n)
  }

  /** Whether the source registers `(l1, v)` for entry `key`: every in-layer
      out-link target of `(l2, v)` calls `addM2Node(layer1, nodeIndex, 0.0)`,
      whatever the out-link total. */
  predicate RegistersAsWritten(links: map<StateLink, real>, key: InterLinkKey, n: StateNode)
  {
    key.layer1 != key.layer2 && n == SourceOf(key) && OutLinksWithin(links, StateNode(key.layer2, key.node)) != map[]
  }

  /** The corrected split registers a node exactly when the source does and
      the in-layer out-links it splits over have a nonzero total. */
  lemma RegistrationAsWritten(links: map<StateLink, real>, key: InterLinkKey, w: real, n: StateNode)
    ensures Registers(links, key, w, n) <==>
              RegistersAsWritten(links, key, n) && StateTotal(OutLinksWithin(links, StateNode(key.layer2, key.node))) != 0.0
  {
    var out := OutLinksWithin(links, StateNode(key.layer2, key.node));
    SharesKeys(out, w);
    if StateTotal(out) != 0.0 && out != map[] {
      var t :| t in out;
      assert t in Shares(out, w);
    }
  }

  /** The node side of the zero-total split: with one in-layer out-link of
      weight 0 from `(1, 5)`, the source registers `(0, 5)` for entry
      `(5, 0, 1)`, and the corrected split does not. */
  lemma ZeroWeightRegistration()
    ensures var key := InterLinkKey(5, 0, 1);
            var links := map[StateLink(StateNode(1, 5), StateNode(1, 2)) := 0.0];
            && RegistersAsWritten(links, key, StateNode(0, 5))
            && !Registers(links, key, 5.0, StateNode(0, 5))
  {
    var key := InterLinkKey(5, 0, 1);
    var t := StateNode(1, 2);
    var links := map[StateLink(StateNode(1, 5), t) := 0.0];
    var out := OutLinksWithin(links, StateNode(1, 5));
    assert t in out;
    assert out == map[t := 0.0];
    ZeroWeightOutLink();
  }

  /** An inter entry does not change which entries register a node. */
  lemma RegisteredKept(g: Graph, key: InterLinkKey, w: real, ks: seq<InterLinkKey>, table: map<InterLinkKey, real>, n: StateNode)
    ensures Registered(Redistribute(g, key, w).links, ks, table, n) <==> Registered(g.links, ks, table, n)
  {
    forall k | k in ks
      ensures Registers(Redistribute(g, key, w).links, k, Get(table, k), n) <==> Registers(g.links, k, Get(table, k), n)
    {
      SharesForKept(g, key, w, k, Get(table, k));
    }
  }

  /** Node `n` after inter entries `ks`: its weight is unchanged, and it is
      present when it was before or some entry registers it. */
  lemma {:induction false} InterPhaseNodeAt(g: Graph, ks: seq<InterLinkKey>, table: map<InterLinkKey, real>, n: StateNode)
    ensures var r := InterPhase(g, ks, table);
            && (n in r.nodes <==> (n in g.nodes || Registered(g.links, ks, table, n)))
            && Get(r.nodes, n) == Get(g.nodes, n)
    decreases |ks|
  {
    if ks != [] {
      var k := ks[0];
      var g1 := Redistribute(g, k, Get(table, k));
      RedistributeNodes(g, k, Get(table, k));
      InterPhaseNodeAt(g1, ks[1..], table, n);
      RegisteredKept(g, k, Get(table, k), ks[1..], table, n);
      RegisteredSplit(g.links, ks, table, n);
    }
  }

  lemma RegisteredSplit(links: map<StateLink, real>, ks: seq<InterLinkKey>, table: map<InterLinkKey, real>, n: StateNode)
    requires ks != []
    ensures Registered(links, ks, table, n) <==>
            (Registers(links, ks[0], Get(table, ks[0]), n) || Registered(links, ks[1..], table, n))
  {
    if Registered(links, ks, table, n) {
      var k :| k in ks && Registers(links, k, Get(table, k), n);
      if k != ks[0] {
        assert k in ks[1..];
      }
    }
    if Registered(links, ks[1..], table, n) {
      var k :| k in ks[1..] && Registers(links, k, Get(table, k), n);
      assert k in ks;
    }
  }

  /** What inter entries do to the node table: no weight changes, and the
      source of every entry that splits its weight is registered. */
  lemma InterPhaseNodes(g: Graph, ks: seq<InterLinkKey>, table: map<InterLinkKey, real>)
    ensures var r := InterPhase(g, ks, table);
            && (forall n :: n in r.nodes <==> (n in g.nodes || Registered(g.links, ks, table, n)))
            && (forall n :: Get(r.nodes, n) == Get(g.nodes, n))
  {
    forall n {
      InterPhaseNodeAt(g, ks, table, n);
    }
  }

  /** The phase gives the same memory network whatever order the (distinct)
      inter entries are walked in. */
  lemma InterPhaseOrderIndependent(g: Graph, ks: seq<InterLinkKey>, ks': seq<InterLinkKey>, table: map<InterLinkKey, real>)
    requires Distinct(ks) && Distinct(ks')
    requires forall k :: k in ks <==> k in ks'
    ensures InterPhase(g, ks, table) == InterPhase(g, ks', table)
  {
    InterPhaseSameLinks(g, ks, ks', table);
    InterPhaseSameNodes(g, ks, ks', table);
  }

  lemma InterPhaseSameLinks(g: Graph, ks: seq<InterLinkKey>, ks': seq<InterLinkKey>, table: map<InterLinkKey, real>)
    requires Distinct(ks) && Distinct(ks')
    requires forall k :: k in ks <==> k in ks'
    ensures InterPhase(g, ks, table).links == InterPhase(g, ks', table).links
  {
    var r, r' := InterPhase(g, ks, table), InterPhase(g, ks', table);
    forall l
      ensures (l in r.links <==> l in r'.links) && Get(r.links, l) == Get(r'.links, l)
    {
      InterPhaseLinkAt(g, ks, table, l);
      InterPhaseLinkAt(g, ks', table, l);
    }
    TablesEqual(r.links, r'.links);
  }

  lemma InterPhaseSameNodes(g: Graph, ks: seq<InterLinkKey>, ks': seq<InterLinkKey>, table: map<InterLinkKey, real>)
    requires Distinct(ks) && Distinct(ks')
    requires forall k :: k in ks <==> k in ks'
    ensures InterPhase(g, ks, table).nodes == InterPhase(g, ks', table).nodes
  {
    var a, b := InterPhase(g, ks, table).nodes, InterPhase(g, ks', table).nodes;
    forall n
      ensures SameAt(a, b, n)
    {
      InterPhaseSameNodeAt(g, ks, ks', table, n);
    }
    SameEverywhere(a, b);
  }

  /** Two node tables agree on node `n`. */
  predicate SameAt(a: map<StateNode, real>, b: map<StateNode, real>, n: StateNode)
  {
    (n in a <==> n in b) && Get(a, n) == Get(b, n)
  }

  lemma SameEverywhere(a: map<StateNode, real>, b: map<StateNode, real>)
    requires forall n :: SameAt(a, b, n)
    ensures a == b
  {
    forall n | n in a
      ensures Get(a, n) == Get(b, n)
    {
      assert SameAt(a, b, n);
    }
    forall n
      ensures n in a <==> n in b
    {
      assert SameAt(a, b, n);
    }
    TablesEqual(a, b);
  }

  lemma InterPhaseSameNodeAt(g: Graph, ks: seq<InterLinkKey>, ks': seq<InterLinkKey>, table: map<InterLinkKey, real>, n: StateNode)
    requires forall k :: k in ks <==> k in ks'
    ensures var r, r' := InterPhase(g, ks, table), InterPhase(g, ks', table);
            (n in r.nodes <==> n in r'.nodes) && Get(r.nodes, n) == Get(r'.nodes, n)
  {
    InterPhaseNodeAt(g, ks, table, n);
    InterPhaseNodeAt(g, ks', table, n);
    assert Registered(g.links, ks, table, n) == Registered(g.links, ks', table, n);
  }

  /** Links added by an inter entry register their source with weight 0,
      so the total node weight does not move. */
  lemma {:induction false} SpreadTotal(g: Graph, src: StateNode, ts: seq<StateNode>, shares: map<StateNode, real>)
    ensures TotalNodeWeight(Spread(g, src, ts, shares)) == TotalNodeWeight(g)
    decreases |ts|
  {
    if ts != [] {
      var g0 := InsertLink(g, src, ts[0], Get(shares, ts[0]));
      TotalAfterAddNode(g0, src, 0.0);
      SpreadTotal(AddNode(g0, src, 0.0), src, ts[1..], shares);
    }
  }
}

=== FILE: weights.dfy ===
/** Weight tables: finite maps from keys to real weights, with the
    "add to an entry, creating it at zero" update that every accumulator of
    the source uses, and sums over such tables. */
module Weights {
  import opened Ordering

  /** The weight stored for `k`, zero when there is no entry. */
  function Get<K>(m: map<K, real>, k: K): real
  {
    if k in m then m[k] else 0.0
  }

  /** Adds `w` to the entry for `k`, creating the entry at zero first. */
  function AddWeight<K(!new)>(m: map<K, real>, k: K, w: real): (r: map<K, real>)
    ensures r.Keys == m.Keys + {k}
    ensures Get(r, k) == Get(m, k) + w
    ensures forall j | j != k :: Get(r, j) == Get(m, j)
  {
    m[k := Get(m, k) + w]
  }

  /** The total weight of the entries named by `ks`, in that order. */
  function SumOver<K>(ks: seq<K>, m: map<K, real>): real
  {
    if ks == [] then 0.0 else Get(m, ks[0]) + SumOver(ks[1..], m)
  }

  lemma {:induction false} SumOverAppend<K>(a: seq<K>, b: seq<K>, m: map<K, real>)
    ensures SumOver(a + b, m) == SumOver(a, m) + SumOver(b, m)
  {
    if a == [] {
      assert a + b == b;
    } else {
      assert (a + b)[1..] == a[1..] + b;
      SumOverAppend(a[1..], b, m);
    }
  }

  lemma {:induction false} SumOverAgree<K>(ks: seq<K>, m1: map<K, real>, m2: map<K, real>)
    requires forall k | k in ks :: Get(m1, k) == Get(m2, k)
    ensures SumOver(ks, m1) == SumOver(ks, m2)
  {
    if ks != [] {
      SumOverAgree(ks[1..], m1, m2);
    }
  }

  /** Removing the entry at position `j` from a distinct key sequence takes
      its weight out of the sum and leaves a distinct sequence without it. */
  lemma SumOverRemove<K>(b: seq<K>, j: nat, m: map<K, real>)
    requires Distinct(b)
    requires j < |b|
    ensures SumOver(b, m) == Get(m, b[j]) + SumOver(b[..j] + b[j+1..], m)
    ensures Distinct(b[..j] + b[j+1..])
    ensures forall y :: y in b[..j] + b[j+1..] <==> y in b && y != b[j]
  {
    RemoveSum(b, j, m);
    RemoveDistinct(b, j);
    RemoveMembers(b, j);
  }

  lemma RemoveSum<K>(b: seq<K>, j: nat, m: map<K, real>)
    requires j < |b|
    ensures SumOver(b, m) == Get(m, b[j]) + SumOver(b[..j] + b[j+1..], m)
  {
    var x := b[j];
    assert b == b[..j] + [x] + b[j+1..];
    SumOverAppend(b[..j] + [x], b[j+1..], m);
    SumOverAppend(b[..j], [x], m);
    SumOverAppend(b[..j], b[j+1..], m);
  }

  lemma RemoveDistinct<K>(b: seq<K>, j: nat)
    requires Distinct(b)
    requires j < |b|
    ensures Distinct(b[..j] + b[j+1..])
  {
    var b' := b[..j] + b[j+1..];
    forall p, q | 0 <= p < q < |b'|
      ensures b'[p] != b'[q]
    {
      var p' := if p < j then p else p + 1;
      var q' := if q < j then q else q + 1;
      assert b'[p] == b[p'] && b'[q] == b[q'];
    }
  }

  lemma RemoveMembers<K>(b: seq<K>, j: nat)
    requires Distinct(b)
    requires j < |b|
    ensures forall y :: y in b[..j] + b[j+1..] <==> y in b && y != b[j]
  {
    var x := b[j];
    var b' := b[..j] + b[j+1..];
    forall y
      ensures y in b' <==> y in b && y != x
    {
      if y in b' {
        var i :| 0 <= i < |b'| && b'[i] == y;
        var i' := if i < j then i else i + 1;
        assert b[i'] == y;
      }
      if y in b && y != x {
        var i :| 0 <= i < |b| && b[i] == y;
        if i < j {
          assert b'[i] == y;
        } else {
          assert b'[i - 1] == y;
        }
      }
    }
  }

  lemma {:induction false} DistinctCount<K>(s: seq<K>)
    requires Distinct(s)
    ensures |set y | y in s| == |s|
  {
    if s != [] {
      DistinctCount(s[1..]);
      assert (set y | y in s) == {s[0]} + (set y | y in s[1..]);
      assert s[0] !in s[1..];
    }
  }

  /** A sum over distinct keys depends only on which keys are summed. */
  lemma {:induction false} SumOverPermutation<K>(a: seq<K>, b: seq<K>, m: map<K, real>)
    requires Distinct(a) && Distinct(b)
    requires forall x :: x in a <==> x in b
    ensures SumOver(a, m) == SumOver(b, m)
    decreases |a|
  {
    if a == [] {
      DistinctCount(b);
      assert (set y | y in b) == {};
    } else {
      var x := a[0];
      assert x in b;
      var j :| 0 <= j < |b| && b[j] == x;
      SumOverRemove(b, j, m);
      assert a[..0] + a[1..] == a[1..];
      SumOverRemove(a, 0, m);
      forall y
        ensures y in a[1..] <==> y in b[..j] + b[j+1..]
      {
        assert y in a[..0] + a[1..] <==> y in a && y != x;
      }
      SumOverPermutation(a[1..], b[..j] + b[j+1..], m);
    }
  }

  /** Adding `w` to a key that occurs once among `ks` adds `w` to the sum. */
  lemma {:induction false} SumOverBump<K(!new)>(ks: seq<K>, m: map<K, real>, k: K, w: real)
    requires Distinct(ks)
    requires k in ks
    ensures SumOver(ks, AddWeight(m, k, w)) == SumOver(ks, m) + w
  {
    if ks[0] == k {
      assert k !in ks[1..];
      SumOverAgree(ks[1..], AddWeight(m, k, w), m);
    } else {
      SumOverBump(ks[1..], m, k, w);
    }
  }

  /** Summing a table whose entries are `c` times another's gives `c` times its sum. */
  lemma {:induction false} SumOverProportional<K>(ks: seq<K>, m: map<K, real>, p: map<K, real>, c: real)
    requires forall k | k in ks :: Get(p, k) == c * Get(m, k)
    ensures SumOver(ks, p) == c * SumOver(ks, m)
  {
    if ks != [] {
      SumOverProportional(ks[1..], m, p, c);
    }
  }

  /** The total weight of a table, summed in ascending key order. */
  function SumMap<K(!new)>(m: map<K, real>, lt: (K, K) -> bool): real
    requires StrictTotalOrder(lt)
  {
    SumOver(Sorted(m.Keys, lt), m)
  }

  /** The total of a table grows by exactly the weight added to one entry. */
  lemma SumMapAdd<K(!new)>(m: map<K, real>, k: K, w: real, lt: (K, K) -> bool)
    requires StrictTotalOrder(lt)
    ensures SumMap(AddWeight(m, k, w), lt) == SumMap(m, lt) + w
  {
    if k in m {
      var ks := Sorted(m.Keys, lt);
      AscendingIsDistinct(ks, lt);
      assert AddWeight(m, k, w).Keys == m.Keys;
      SumOverBump(ks, m, k, w);
    } else {
      SumMapAddNew(m, k, w, lt);
    }
  }

  lemma SumMapAddNew<K(!new)>(m: map<K, real>, k: K, w: real, lt: (K, K) -> bool)
    requires StrictTotalOrder(lt)
    requires k !in m
    ensures SumMap(AddWeight(m, k, w), lt) == SumMap(m, lt) + w
  {
    var m' := AddWeight(m, k, w);
    var ks := Sorted(m.Keys, lt);
    var ks' := Sorted(m'.Keys, lt);
    SortedSnoc(m, k, w, lt);
    SumOverPermutation(ks', ks + [k], m');
    SumOverSnoc(ks, m, k, w);
  }

  /** The keys after adding a new one, in order, are the old keys in order
      followed by the new key, up to rearrangement. */
  lemma SortedSnoc<K(!new)>(m: map<K, real>, k: K, w: real, lt: (K, K) -> bool)
    requires StrictTotalOrder(lt)
    requires k !in m
    ensures var ks := Sorted(m.Keys, lt);
            var ks' := Sorted(AddWeight(m, k, w).Keys, lt);
            && Distinct(ks') && Distinct(ks + [k])
            && forall x :: x in ks' <==> x in ks + [k]
  {
    var ks := Sorted(m.Keys, lt);
    AscendingIsDistinct(ks, lt);
    AscendingIsDistinct(Sorted(AddWeight(m, k, w).Keys, lt), lt);
    DistinctSnoc(ks, k);
  }

  /** Summing the old keys and then the new one over the grown table adds
      the new weight to the old sum. */
  lemma SumOverSnoc<K(!new)>(ks: seq<K>, m: map<K, real>, k: K, w: real)
    requires k !in m
    requires forall x | x in ks :: x in m
    ensures SumOver(ks + [k], AddWeight(m, k, w)) == SumOver(ks, m) + w
  {
    var m' := AddWeight(m, k, w);
    SumOverAppend(ks, [k], m');
    SumOverAgree(ks, m', m);
  }

  lemma DistinctSnoc<K>(ks: seq<K>, k: K)
    requires Distinct(ks)
    requires k !in ks
    ensures Distinct(ks + [k])
  {
    forall p, q | 0 <= p < q < |ks + [k]|
      ensures (ks + [k])[p] != (ks + [k])[q]
    {
      if q == |ks| {
        assert (ks + [k])[p] == ks[p];
      }
    }
  }

  /** Two tables are equal when they have the same keys and agree on them. */
  lemma TablesEqual<K>(m1: map<K, real>, m2: map<K, real>)
    requires m1.Keys == m2.Keys
    requires forall k | k in m1 :: Get(m1, k) == Get(m2, k)
    ensures m1 == m2
  {
    assert forall k | k in m1 :: m1[k] == Get(m1, k) == Get(m2, k) == m2[k];
  }

  /** The entries of `m` whose keys satisfy `p`. */
  function Restrict<K(!new)>(m: map<K, real>, p: K -> bool): (r: map<K, real>)
    ensures forall k :: k in r <==> k in m && p(k)
    ensures forall k :: Get(r, k) == if p(k) then Get(m, k) else 0.0
  {
    map k | k in m && p(k) :: m[k]
  }

  /** The elements of `ks` that satisfy `p`, in order. */
  function Filter<K(!new)>(ks: seq<K>, p: K -> bool): (r: seq<K>)
    ensures forall k :: k in r <==> k in ks && p(k)
  {
    if ks == [] then []
    else if p(ks[0]) then [ks[0]] + Filter(ks[1..], p)
    else Filter(ks[1..], p)
  }

  lemma {:induction false} FilterDistinct<K(!new)>(ks: seq<K>, p: K -> bool)
    requires Distinct(ks)
    ensures Distinct(Filter(ks, p))
  {
    if ks != [] {
      FilterDistinct(ks[1..], p);
      assert ks[0] !in ks[1..];
    }
  }

  /** The total weight of the entries named by `ks` whose keys satisfy `p`. */
  function SumWhere<K>(ks: seq<K>, m: map<K, real>, p: K -> bool): real
  {
    if ks == [] then 0.0
    else (if p(ks[0]) then Get(m, ks[0]) else 0.0) + SumWhere(ks[1..], m, p)
  }

  lemma {:induction false} SumWhereIsSumOverFilter<K(!new)>(ks: seq<K>, m: map<K, real>, p: K -> bool)
    ensures SumWhere(ks, m, p) == SumOver(Filter(ks, p), m)
  {
    if ks != [] {
      SumWhereIsSumOverFilter(ks[1..], m, p);
    }
  }

  /** Summing the entries that satisfy `p` along any enumeration of the keys
      gives the total of the restricted table. */
  lemma SumWhereIsSumMap<K(!new)>(ks: seq<K>, m: map<K, real>, p: K -> bool, lt: (K, K) -> bool)
    requires StrictTotalOrder(lt)
    requires Distinct(ks)
    requires forall k :: k in ks <==> k in m
    ensures SumWhere(ks, m, p) == SumMap(Restrict(m, p), lt)
  {
    var r := Restrict(m, p);
    var f := Filter(ks, p);
    var sorted := Sorted(r.Keys, lt);
    SumWhereIsSumOverFilter(ks, m, p);
    FilterDistinct(ks, p);
    AscendingIsDistinct(sorted, lt);
    SumOverAgree(f, m, r);
    SumOverPermutation(f, sorted, r);
  }
}

=== FILE: wrappers.dfy ===
/** Failure-compatible result and option types. */
module Wrappers {

  datatype Option<T> = None | Some(value: T)

  datatype Result<T, E> = Success(value: T) | Failure(error: E) {

    predicate IsFailure()
    {
      Failure?
    }

    function PropagateFailure<U>(): Result<U, E>
      requires Failure?
    {
      Failure(error)
    }

    function Extract(): T
      requires Success?
    {
      value
    }
  }
}
